=== FILE: README.md ===
# CFOP PLL trainer: a verified model of its core logic

This project models the logic of the trainer's `src/lib` in Dafny and proves
properties about it. The trainer drills the 21 PLL cases of the CFOP method.
It times solves and keeps per-case proficiency ratings.

The model covers five parts:

- **Move-sequence engine** (`alg_engine.dfy`, module `AlgEngine`):
  - `parseMoveToken` classifies single move tokens. A base letter from
    `RUFLDBMESxyzrlud`, in either case, may be followed by `w`; then comes a
    suffix of none, `'`, `2` or `2'`.
  - `simplifySteps` is a stack machine. It merges consecutive moves on the same
    base modulo four quarter turns, and drops a pair whose turns cancel.
  - `isIdentity` and `applyToCase` build their verdicts on that stack.
  - The whitespace split of the normalised text is modelled too.
  - `SimplifySteps` is a method with the source's loop. It is proved equal to the
    function `Simplify = Render ∘ Reduce`, and the lemmas are stated about
    `Reduce`.
- **Solve-time statistics** (`timing_engine.dfy`, module `TimingEngine`):
  - penalties, and the counted times (a loop, as a method);
  - mean, median and personal best;
  - the trimmed average of the last N solves (ao5 and ao12);
  - the history filter.
- **Practice selection** (`practice_engine.dfy`, module `PracticeEngine`):
  - group and exclusion filtering;
  - the balanced draw and the weighted draw. The accumulating loop of the
    weighted draw is a method.
- **Proficiency bookkeeping** (`proficiency_store.dfy`, module `ProficiencyStore`):
  - the default level, the level labels and the drawing weights;
  - per-level counting (a loop, as a method);
  - the map updates made by the store hook.
- **Primary-algorithm preferences** (`alg_preference_store.dfy`, module
  `AlgPreferenceStore`): the trim-or-fallback read, and the write that ignores
  blank input.

Supporting modules:

- `Text`: JavaScript's `trim`, `split(/\s+/)` and `join(" ")`, over the explicit
  set of code points that ECMAScript treats as whitespace or line terminators.
- `Seqs`: `Array.prototype.filter`.
- `CaseLibrary`: the case record type.
- `Wrappers`: `Option` and `Result`.

The random draw is a parameter, and so is the expansion by the notation
library. Times are milliseconds, modelled as reals.

What the code does with a few inputs worth naming:

- **Simplification is not idempotent.** A prime move pushed without merging keeps
  power −1. The render step only spells out powers 0 to 3, so that prime is shown
  as the bare base. Simplifying `R R R` gives `R'`, and simplifying `R'` gives `R`.
  `SimplifyNotIdempotent` proves this, and `ResimplifyKeepsShape` says exactly
  what re-simplifying does.
- **`2'` is read as a half turn** (power 2), like `2`.
- **Unrecognised tokens never merge.** The stack never holds two adjacent
  entries with the same base when the upper one is a recognised move, but two
  equal unrecognised tokens stay neighbours (`UnknownTokensNeverMerge`). The
  proved stack invariant `Canonical` is worded accordingly.

## Model

| member | source | states |
|---|---|---|
| Text.Trim | src/lib/algEngine.ts:27 | the trimmed string is no longer than the input and neither starts nor ends with whitespace |
| Text.TrimSurround | src/lib/algEngine.ts:27 | the input is whitespace, then its trimmed form, then whitespace |
| Text.TrimIsSlice | src/lib/algEngine.ts:27 | the trimmed string is a contiguous slice of the input, with only whitespace cut off on either side |
| Text.TrimKeepsNonSpace | src/lib/algEngine.ts:27 | trimming removes whitespace only: the non-whitespace characters are unchanged and in order |
| Text.TrimmedIsFixedPoint | src/lib/algPreferenceStore.ts:16 | a string that neither starts nor ends with whitespace is its own trim |
| Text.TrimIdempotent | src/lib/algPreferenceStore.ts:30 | trimming twice is trimming once |
| Text.Split | src/lib/algEngine.ts:28 | `split(/\s+/)` yields at least one piece, and no piece contains whitespace |
| Text.SplitAtGap | src/lib/algEngine.ts:28 | every run of whitespace, of any length and kind, cuts: a word, a whitespace run and a rest not starting with whitespace split into the word followed by the rest's pieces |
| Text.SplitWord | src/lib/algEngine.ts:28 | a whitespace-free string is one piece |
| Text.SplitTwoWords | src/lib/algEngine.ts:28 | `"R \t U"` splits into `R` and `U` |
| Text.SplitKeepsNonSpace | src/lib/algEngine.ts:28 | the pieces glued back together are the input with its whitespace removed |
| Text.SplitTrimmedNonEmpty | src/lib/algEngine.ts:28 | a non-empty trimmed string splits into non-empty pieces only |
| Text.SplitJoin | src/lib/algEngine.ts:99 | joining non-empty, whitespace-free tokens with single spaces and splitting again gives the tokens back |
| Text.Join | src/lib/algEngine.ts:99 | `join(" ")`: empty for no tokens; otherwise begins with the first token, and when more tokens follow a single space comes next and the rest is the join of the remaining tokens |
| Text.JoinLength | src/lib/algEngine.ts:99 | the join is exactly one separator character longer per neighbouring pair than the tokens laid end to end |
| Text.JoinTrimmed | src/lib/algEngine.ts:99 | such a join is trimmed, and non-empty when there is a token |
| Seqs.Filter | src/lib/timingEngine.ts:100-104 | an element is kept exactly when it is in the input and passes the test; the result is no longer |
| Seqs.FilterAppend | src/lib/practiceEngine.ts:17-21 | filtering distributes over concatenation, so the kept elements stay in order |
| Seqs.FilterKeepsAll | src/lib/timingEngine.ts:100-104 | a filter every element passes keeps the whole list |
| AlgEngine.ParseMoveToken | src/lib/algEngine.ts:37-49 | a token is accepted only as a base (one letter of `RUFLDBMESxyzrlud` in either case, optional `w`/`W`) followed by a suffix in {"", `'`, `2`, `2'`}; the power is 1, −1, 2 or 2 by suffix |
| AlgEngine.ParseMoveTokenAccepts | src/lib/algEngine.ts:38-48 | the converse: every base followed by one of the four suffixes is accepted, split there, with that power |
| AlgEngine.BaseIsMove | src/lib/algEngine.ts:44 | a bare base is a quarter turn of power 1 |
| AlgEngine.JsRem4 | src/lib/algEngine.ts:65 | JavaScript's `% 4`: the remainder lies in (−4, 4), differs from the input by a multiple of 4, and has the sign of the input (non-negative for non-negative input, non-positive for non-positive input) |
| AlgEngine.MergePower | src/lib/algEngine.ts:65 | the merged power lies in 0..3 and agrees with the sum of the two powers modulo 4 |
| AlgEngine.MergePowerZero | src/lib/algEngine.ts:65-69 | the merged power is 0 exactly when the two powers sum to a multiple of 4 |
| AlgEngine.Push | src/lib/algEngine.ts:56-72 | one loop iteration grows or shrinks the stack by at most one entry |
| AlgEngine.PushKeepsBelow | src/lib/algEngine.ts:56-72 | one loop iteration changes only the top of the stack: every entry below it is kept |
| AlgEngine.RenderEntry | src/lib/algEngine.ts:75-81 | a rendered entry is exactly its base, its base and `2`, or its base and `'`; power 2 renders as base and `2`, power 3 as base and `'` |
| AlgEngine.Render | src/lib/algEngine.ts:75-81 | one token per stack entry, in stack order, each starting with its entry's base |
| AlgEngine.SimplifySteps | src/lib/algEngine.ts:52-82 | the stack loop returns the rendering of the reduced stack; it is no longer than its input, and its rejected tokens are the input's, in order |
| AlgEngine.PushCanonical | src/lib/algEngine.ts:55-73 | one loop iteration keeps the stack invariant: recognised powers in {−1, 1, 2, 3}, unrecognised tokens at power 0, no recognised entry on an entry with its base |
| AlgEngine.ReduceCanonical | src/lib/algEngine.ts:53-73 | the stack invariant holds after every prefix of the steps |
| AlgEngine.ReduceShrinks | src/lib/algEngine.ts:55-81 | the stack, and so the output, has at most as many entries as there are steps |
| AlgEngine.PushUnknownEntries | src/lib/algEngine.ts:57-60 | a step adds an unrecognised entry exactly when the parser rejects it, and that entry is the step itself |
| AlgEngine.ReduceUnknownEntries | src/lib/algEngine.ts:55-73 | the unrecognised entries of the stack are the rejected steps, in their original order |
| AlgEngine.RenderUnknownSteps | src/lib/algEngine.ts:75-81 | rendering shows each unrecognised entry verbatim and every other entry as an accepted move |
| AlgEngine.SimplifyKeepsUnknownSteps | src/lib/algEngine.ts:57-60 | unrecognised tokens appear in the output verbatim and in their original order |
| AlgEngine.UnknownTokensNeverMerge | src/lib/algEngine.ts:57-60 | an unrecognised token is never merged, not even with an identical neighbour |
| AlgEngine.PushSameBase | src/lib/algEngine.ts:63-69 | a move with the top entry's base replaces the top entry by their merge, or removes it when the merged power is 0 |
| AlgEngine.PushNewBase | src/lib/algEngine.ts:70-71 | a move with another base is pushed unchanged |
| AlgEngine.SimplifyPair | src/lib/algEngine.ts:63-69 | two moves on one base reduce to one entry with the summed power modulo 4, or to nothing exactly when the sum is a multiple of 4 |
| AlgEngine.RenderEntryReparses | src/lib/algEngine.ts:75-81 | a rendered recognised entry parses back with the same base; powers 1, 2 and 3 read back unchanged modulo 4, and an unmerged −1 reads back as 1 |
| AlgEngine.ReduceRender | src/lib/algEngine.ts:75-81 | re-reducing the rendering of an invariant-respecting stack gives the same bases with the read-back powers |
| AlgEngine.ResimplifyKeepsShape | src/lib/algEngine.ts:52-82 | simplifying the output again keeps its length and bases and only re-reads the powers |
| AlgEngine.SimplifyNotIdempotent | src/lib/algEngine.ts:75-80 | `b b b` simplifies to `b'`, and `b'` simplifies to `b` |
| AlgEngine.SimplifyHalfTurn | src/lib/algEngine.ts:63-78 | two equal quarter turns `b b` simplify to the half turn `b2` |
| AlgEngine.ThreeQuarterTurns | src/lib/algEngine.ts:63-69 | `b b b` leaves a single entry of power 3 |
| AlgEngine.OnePrime | src/lib/algEngine.ts:70-71 | `b'` alone leaves a single entry of power −1 |
| AlgEngine.ReduceMerge | src/lib/algEngine.ts:63-68 | a move on the top entry's base whose merged power is not 0 replaces the top entry by the merge |
| AlgEngine.AlternatingBasesKeepFourMoves | src/lib/algEngine.ts:63-71 | `b1 b2 b1' b2'` keeps four entries and renders as `b1 b2 b1 b2` |
| AlgEngine.PushSameTurns | src/lib/algEngine.ts:63-69 | the stack after a step depends on the earlier powers only modulo 4 |
| AlgEngine.ReduceFromSameTurns | src/lib/algEngine.ts:55-73 | stacks equal up to powers modulo 4 stay so after any further steps |
| AlgEngine.ReduceFromAppend | src/lib/algEngine.ts:55-73 | processing `s + t` is processing `s`, then `t` on the resulting stack |
| AlgEngine.PushInverse | src/lib/algEngine.ts:63-71 | a move followed by its inverse leaves an invariant-respecting stack as it was, up to powers modulo 4 |
| AlgEngine.SimplifyCancelsInverse | src/lib/algEngine.ts:55-81 | any sequence of moves followed by its inverse (steps reversed, each inverted) simplifies to nothing |
| AlgEngine.InverseThenSteps | src/lib/algEngine.ts:107-110 | the inverse of a move sequence followed by the sequence itself (setup first, as in `applyToCase`) simplifies to nothing |
| AlgEngine.InvertStepsTwice | src/lib/algEngine.ts:37-49 | the inverse of a move sequence is moves again, and inverting twice gives moves that parse as the originals |
| AlgEngine.ReduceFromSameMoves | src/lib/algEngine.ts:55-73 | the stack depends on a move only through what it parses as |
| AlgEngine.SplitSteps | src/lib/algEngine.ts:28 | the empty text gives no steps; the steps contain no whitespace, glue back to the text without whitespace, and are non-empty for trimmed text |
| AlgEngine.Parse | src/lib/algEngine.ts:24-34 | fails with the fixed message exactly when the expansion fails; otherwise keeps the raw text, `normalized` is the trimmed expansion, and the steps are its whitespace split, non-empty and whitespace-free |
| AlgEngine.SimplifyTokensWellFormed | src/lib/algEngine.ts:75-81 | the output of non-empty whitespace-free steps again consists of non-empty whitespace-free steps |
| AlgEngine.Verdict | src/lib/algEngine.ts:98-103 | identity holds exactly when nothing remains and exactly when the stack is empty; the count is at most the number of steps |
| AlgEngine.VerdictFacts | src/lib/algEngine.ts:98-103 | identity holds exactly when the stack is empty and exactly when `simplified` is empty; `simplified` is the output joined with single spaces and splits back into it; the count is the output's length, between the number of rejected tokens and the number of steps |
| AlgEngine.IsIdentity | src/lib/algEngine.ts:96-105 | fails exactly when parsing fails; otherwise reports identity exactly for an empty output, counts the output, and joins it with single spaces so that splitting gives it back |
| AlgEngine.ApplyToCase | src/lib/algEngine.ts:107-118 | `combined` is the trimmed setup, a space and the candidate; the verdict, `simplified` and the count are those `isIdentity` gives for `combined` |
| TimingEngine.ApplyPenalty | src/lib/timingEngine.ts:24-28 | no time exactly for a DNF; a +2 solve counts exactly 2000 ms more; the time is unchanged exactly for an OK solve |
| TimingEngine.PenalisedTimes | src/lib/timingEngine.ts:30-37 | at most one counted time per record, each the penalised time of one of the records |
| TimingEngine.NumericTimes | src/lib/timingEngine.ts:30-37 | the loop collects the penalised times of the non-DNF records in order; their number plus the DNF count is the number of records |
| TimingEngine.PenalisedTimesCount | src/lib/timingEngine.ts:30-37 | one counted time per record, except none for a DNF |
| TimingEngine.PenalisedTimesAppend | src/lib/timingEngine.ts:30-37 | the counted times and DNF counts of two runs of records add up |
| TimingEngine.PenalisedTimesWithoutDnf | src/lib/timingEngine.ts:30-37 | without DNFs, the i-th counted time is the i-th record's penalised time |
| TimingEngine.Min | src/lib/timingEngine.ts:55 | `Math.min`: one of the values, and no larger than any of them |
| TimingEngine.Max | src/lib/timingEngine.ts:67-68 | the greatest value: one of the values, and no smaller than any of them |
| TimingEngine.Insert | src/lib/timingEngine.ts:47 | one element longer, holding exactly the old values and the new one |
| TimingEngine.Sort | src/lib/timingEngine.ts:47 | the same values (as a multiset) and the same length |
| TimingEngine.InsertSorted | src/lib/timingEngine.ts:47 | inserting into sorted values keeps them sorted, adds exactly the new value, and adds it to the sum |
| TimingEngine.SortSorted | src/lib/timingEngine.ts:47 | the numeric sort yields the same values (as a multiset), with the same sum, in ascending order |
| TimingEngine.SortedUnique | src/lib/timingEngine.ts:47 | two sorted arrangements of the same values are equal |
| TimingEngine.SortPermutation | src/lib/timingEngine.ts:65 | the sort depends only on the values, not on the order they come in |
| TimingEngine.SortEnds | src/lib/timingEngine.ts:65-68 | the sorted values are ascending, begin with the least value and end with the greatest |
| TimingEngine.Average | src/lib/timingEngine.ts:39-43 | none exactly for no values; otherwise the mean (it times the count is the sum), between the least and the greatest value |
| TimingEngine.SumPermutation | src/lib/timingEngine.ts:41 | the sum does not depend on the order of the values |
| TimingEngine.AveragePermutation | src/lib/timingEngine.ts:39-43 | the mean does not depend on the order of the values |
| TimingEngine.MeanWithin | src/lib/timingEngine.ts:42 | the mean of values in `[lo, hi]` lies in `[lo, hi]` |
| TimingEngine.Middle | src/lib/timingEngine.ts:48-50 | the element at index ⌊n/2⌋ for an odd count, the mean of the elements at ⌊n/2⌋−1 and ⌊n/2⌋ for an even count; for ascending values it lies between the first and the last |
| TimingEngine.Median | src/lib/timingEngine.ts:45-51 | none exactly for no values; otherwise between the least and the greatest, and one of the values for an odd count |
| TimingEngine.MedianOfSorted | src/lib/timingEngine.ts:47-50 | for ascending values, the median is the middle element (odd count) or the mean of the two middle ones (even count) |
| TimingEngine.MedianPermutation | src/lib/timingEngine.ts:45-51 | the median does not depend on the order of the values |
| TimingEngine.Best | src/lib/timingEngine.ts:53-56 | none exactly for no values; otherwise one of the values and no larger than any |
| TimingEngine.SliceFrom | src/lib/timingEngine.ts:60 | JavaScript's `slice(start)`: always a suffix of the input; a negative start keeps the last `-start` elements (all of them when that exceeds the length); a non-negative start drops that many, leaving nothing past the end |
| TimingEngine.Window | src/lib/timingEngine.ts:60 | for `1 <= n <= length`, exactly the last `n` records |
| TimingEngine.TrimmedAverage | src/lib/timingEngine.ts:65-69 | defined exactly for three or more times; then between the least and the greatest time |
| TimingEngine.TrimmedAverageIsMean | src/lib/timingEngine.ts:65-69 | the trimmed average is the mean of the times with one least and one greatest time taken out, whatever order the rest is in |
| TimingEngine.ComputeAoN | src/lib/timingEngine.ts:58-70 | defined exactly when there are at least `n` records, at most one DNF among the last `n` and at least three counted times; then within those times' range, and equal to their trimmed average |
| TimingEngine.AoNIsTrimmedMean | src/lib/timingEngine.ts:58-70 | a defined average of N is the mean of the window's counted times without one least and one greatest |
| TimingEngine.AoNDefined | src/lib/timingEngine.ts:59-66 | for windows of four or more, the average of N exists exactly when there are enough records and at most one DNF among the last `n` |
| TimingEngine.AoNUsesLastN | src/lib/timingEngine.ts:60 | older records never change the average of N |
| TimingEngine.ComputeStats | src/lib/timingEngine.ts:72-83 | mean, median and best of the counted times, with ao5 and ao12; the mean is absent exactly when every record is a DNF; the best is no greater than the mean or the median |
| TimingEngine.Matches | src/lib/timingEngine.ts:100-104 | a non-empty case-id filter passes only that case, a group filter only that group, and no filter (or an empty case id alone) passes everything |
| TimingEngine.FilterSolves | src/lib/timingEngine.ts:96-105 | a record is kept exactly when it is in the history and passes the given case and group filters (an empty case id filters nothing); never longer |
| TimingEngine.FilterSolvesWithoutOptions | src/lib/timingEngine.ts:100-104 | with no filter, or only an empty case id, every record is kept in order |
| TimingEngine.FilterSolvesAppend | src/lib/timingEngine.ts:96-105 | filtering older and newer records separately and concatenating gives the same list |
| PracticeEngine.FilterCasesForPractice | src/lib/practiceEngine.ts:13-22 | a case is kept exactly when it is in the list, its group is enabled and its id is not excluded |
| PracticeEngine.FilterCasesAppend | src/lib/practiceEngine.ts:17-21 | filtering preserves the original order (it distributes over concatenation) |
| PracticeEngine.FilterCasesKeepsAll | src/lib/practiceEngine.ts:17-21 | with every group enabled and nothing excluded, every case is kept |
| PracticeEngine.Weights | src/lib/practiceEngine.ts:36 | one weight per candidate, each `4 - level` and so in 1..3 |
| PracticeEngine.PrefixSum | src/lib/practiceEngine.ts:37 | with weights in 1..3, the running total of `i` weights lies between `i` and `3i` |
| PracticeEngine.PrefixSumGrows | src/lib/practiceEngine.ts:41 | with weights of at least 1, the running total grows by at least one per candidate |
| PracticeEngine.WeightsTotal | src/lib/practiceEngine.ts:36-37 | the total weight lies between the number of candidates and three times that number |
| PracticeEngine.FirstReaching | src/lib/practiceEngine.ts:39-44 | the first index whose running total reaches the draw, or the last index when none does |
| PracticeEngine.WeightedIndexSlice | src/lib/practiceEngine.ts:39-43 | for a draw in `[0, total)`, candidate `i` is drawn exactly when the draw falls in its own slice of the running total |
| PracticeEngine.PickWeighted | src/lib/practiceEngine.ts:39-44 | the accumulating loop returns the first candidate whose running weight reaches the draw, else the last |
| PracticeEngine.BalancedIndex | src/lib/practiceEngine.ts:31 | `floor(draw * n)` is an index below `n` |
| PracticeEngine.Scale | src/lib/practiceEngine.ts:38 | `Math.random() * total`: a draw in `[0, 1)` scales a positive total into `[0, total)` |
| PracticeEngine.ChooseRandomCase | src/lib/practiceEngine.ts:24-45 | nothing exactly when there are no candidates; otherwise a candidate, at `floor(draw * n)` in balanced mode, or the weighted pick of the scaled draw |
| PracticeEngine.WeightedDrawReaches | src/lib/practiceEngine.ts:38-44 | for a draw in `[0, 1)`, the weighted pick always lands in its candidate's slice; the last-candidate fallback never decides |
| ProficiencyStore.GetDefaultLevel | src/lib/proficiencyStore.ts:10-12 | the default level is "生疏" (unfamiliar), the level with the greatest weight |
| ProficiencyStore.GetLevel | src/lib/proficiencyStore.ts:14-16 | the stored level, or the default level for a case not in the map |
| ProficiencyStore.LevelLabel | src/lib/proficiencyStore.ts:18-22 | level 1 is 生疏, level 2 is 一般 and level 3 is 熟练, each label for its level only |
| ProficiencyStore.LevelLabelInjective | src/lib/proficiencyStore.ts:18-22 | different levels have different labels |
| ProficiencyStore.LevelWeight | src/lib/proficiencyStore.ts:24-29 | the weight is `4 - level`, in 1..3 |
| ProficiencyStore.LevelWeightDecreasing | src/lib/proficiencyStore.ts:24-29 | the weight strictly decreases as the level rises |
| ProficiencyStore.CountLevel | src/lib/proficiencyStore.ts:47-56 | at most the number of cases (the three counts add up to it, in `SummarizeProficiency`) |
| ProficiencyStore.SummarizeProficiency | src/lib/proficiencyStore.ts:47-56 | the loop counts the cases at each level, and the three counts add up to the number of cases |
| ProficiencyStore.UnratedCountAsLevel1 | src/lib/proficiencyStore.ts:50-51 | a case missing from the map is counted at level 1, so against an empty map all cases are |
| ProficiencyStore.SetLevelForCase | src/lib/proficiencyStore.ts:34-36 | the new map rates the case at the given level, adds only that key, and keeps every other case's level |
| ProficiencyStore.ResetAll | src/lib/proficiencyStore.ts:38 | the map is empty, so every case is at the default level and every case list counts entirely at level 1 |
| AlgPreferenceStore.GetPrimaryFromMap | src/lib/algPreferenceStore.ts:10-19 | the fallback, verbatim, when the case is absent or its stored algorithm trims to empty; otherwise the stored algorithm trimmed, with the same non-whitespace characters |
| AlgPreferenceStore.PrimaryIsFallbackOrClean | src/lib/algPreferenceStore.ts:15-18 | the result is the fallback or a non-empty trimmed algorithm |
| AlgPreferenceStore.WellStoredReadsBack | src/lib/algPreferenceStore.ts:15-18 | from a map of trimmed non-empty algorithms, the stored algorithm comes back unchanged |
| AlgPreferenceStore.SetPrimary | src/lib/algPreferenceStore.ts:29-34 | a blank algorithm leaves the map unchanged; otherwise its trimmed form is stored under the case, and every other key is unchanged |
| AlgPreferenceStore.SetThenGet | src/lib/algPreferenceStore.ts:29-36 | after a non-blank write, reading the case gives the trimmed algorithm; after a blank one, the old answer |
| AlgPreferenceStore.SetKeepsOthers | src/lib/algPreferenceStore.ts:32 | a write for one case never changes what another case reads |
| AlgPreferenceStore.SetPrimaryWellStored | src/lib/algPreferenceStore.ts:30-32 | writes keep every stored algorithm trimmed and non-empty |
| AlgPreferenceStore.SetPrimaryIdempotent | src/lib/algPreferenceStore.ts:30-32 | writing the same algorithm twice is writing it once |

## Left out

- The notation library (`cubing/alg`) is left out: the `Alg` constructor, `expand` and `invert` (src/lib/algEngine.ts:1, 25-26, 120-125). Its grammar, repeat expansion and inversion are not visible.
  - The expansion is a parameter `expand: string -> Option<string>`, where `None` stands for the library throwing.
  - `invert` is not modelled. `InvertSteps` is the move-by-move inverse, used only to state `SimplifyCancelsInverse` and `InverseThenSteps`. These are about step lists: since `expand` is a parameter, the model does not promise that the steps of `setup + " " + candidate` are the setup's steps followed by the candidate's.
- `toSteps` (src/lib/algEngine.ts:92-94) is only `Parse(...).value.steps`, so it has no member of its own.
- Case data: src/lib/caseLibrary.ts's table, and `setupAlg` derived by `invert`, are left out. Only the case record type is modelled, and `setupAlg` is an input.
- `formatTime` is left out: floating-point division and `toFixed`/`padStart` formatting.
- Export and import (`buildExportPayload`, `parseExportPayload`) are left out: they use `Date` and `JSON.parse`.
- Floating point is not modelled. Times are exact reals, so NaN, Infinity and rounding are absent. The `Number.isFinite` test in `numericTimes` therefore always passes in the model.
- `Math.random` becomes the `draw` parameter of `ChooseRandomCase`, with the range `[0, 1)` that `Math.random` guarantees.
- React state, `localStorage` persistence, timers, keyboard handling and the 3D cube widgets are left out. Of the store hooks, only their map updates are modelled, as functions from the old map to the new one.
- The sort comparator's stability and the engine's tie-breaking are left out: for reals, equal values are indistinguishable.
- Text: `trim` and `\s` use an explicit set of 25 code points. Unicode normalisation is not modelled.
- PracticeEngine.WeightedIndex: its own contract states only that the index is in range. What the index means is proved in `WeightedIndexSlice` and `FirstReaching`.

=== FILE: alg_engine.dfy ===
/**
 * The move-sequence engine (src/lib/algEngine.ts): classification of single move
 * tokens, the stack that merges consecutive moves on the same base modulo four
 * quarter turns, and the identity verdicts built on it.
 *
 * The notation library's parse-and-expand step is not part of this model; it is
 * passed in as `expand`, which yields the expanded text, or `None` where the
 * library throws.
 */
module AlgEngine {
  import opened Wrappers
  import opened Text

  /** A stack entry `{ base, power }`. An unrecognised token is kept as its own base with power 0. */
  datatype Entry = Entry(base: string, power: int)

  datatype ParsedAlg = ParsedAlg(raw: string, normalized: string, steps: seq<string>)

  datatype IdentityResult = IdentityResult(isIdentity: bool, simplified: string, remainingMoves: nat)

  datatype ApplyResult = ApplyResult(combined: string, isIdentity: bool, simplified: string, remainingMoves: nat)

  /** A case as the engine sees it: the sequence that takes the solved cube to the case. */
  datatype CaseState = CaseState(setupAlg: string)

  const ParseErrorMessage := "算法解析失败，请检查符号与空格是否符合 WCA/SiGN 记法。"

  // ---------------------------------------------------------------------------
  // Move tokens
  // ---------------------------------------------------------------------------

  /** The letters of `[RUFLDBMESxyzrlud]`, matched case-insensitively. */
  predicate IsBaseLetter(c: char) {
    || c == 'R' || c == 'U' || c == 'F' || c == 'L' || c == 'D' || c == 'B'
    || c == 'M' || c == 'E' || c == 'S' || c == 'X' || c == 'Y' || c == 'Z'
    || c == 'r' || c == 'u' || c == 'f' || c == 'l' || c == 'd' || c == 'b'
    || c == 'm' || c == 'e' || c == 's' || c == 'x' || c == 'y' || c == 'z'
  }

  /** `[RUFLDBMESxyzrlud][w]?` under the `/i` flag. */
  predicate IsBase(b: string) {
    || (|b| == 1 && IsBaseLetter(b[0]))
    || (|b| == 2 && IsBaseLetter(b[0]) && (b[1] == 'w' || b[1] == 'W'))
  }

  /** `(2|'|2'|)` */
  predicate IsSuffix(s: string) {
    s == "" || s == "'" || s == "2" || s == "2'"
  }

  /** The power each suffix stands for: none 1, `'` -1, `2` and `2'` both 2. */
  function SuffixPower(suffix: string): int
    requires IsSuffix(suffix)
  {
    if suffix == "" then 1 else if suffix == "'" then -1 else 2
  }

  /**
   * `parseMoveToken`: accepts only a base followed by one of the four suffixes,
   * and reads the power off the suffix. `ParseMoveTokenAccepts` gives the
   * converse: every base followed by a suffix is accepted.
   */
  function ParseMoveToken(move: string): (r: Option<Entry>)
    ensures r.Some? ==> IsBase(r.value.base) && |r.value.base| <= |move|
                        && move[..|r.value.base|] == r.value.base
                        && IsSuffix(move[|r.value.base|..])
                        && r.value.power == SuffixPower(move[|r.value.base|..])
  {
    if move == [] || !IsBaseLetter(move[0]) then
      None
    else
      var k := if |move| >= 2 && (move[1] == 'w' || move[1] == 'W') then 2 else 1;
      var suffix := move[k..];
      if !IsSuffix(suffix) then
        None
      else
        var power :=
          if suffix == "" then 1
          else if suffix == "'" then -1
          else if suffix[0] == '2' then 2
          else 0;
        assert IsBase(move[..k]);
        Some(Entry(move[..k], power))
  }

  /** Every base followed by one of the four suffixes is a move, split at the right place. */
  lemma ParseMoveTokenAccepts(b: string, suffix: string)
    requires IsBase(b) && IsSuffix(suffix)
    ensures ParseMoveToken(b + suffix) == Some(Entry(b, SuffixPower(suffix)))
  {
    var t := b + suffix;
    assert t[0] == b[0];
    if |b| == 2 {
      assert t[1] == b[1];
    } else if |t| >= 2 {
      assert t[1] == suffix[0];
    }
    assert t[..|b|] == b;
    assert t[|b|..] == suffix;
  }

  lemma BaseIsMove(b: string)
    requires IsBase(b)
    ensures ParseMoveToken(b) == Some(Entry(b, 1))
  {
    ParseMoveTokenAccepts(b, "");
    assert b + "" == b;
  }

  // ---------------------------------------------------------------------------
  // The simplification stack
  // ---------------------------------------------------------------------------

  /** JavaScript's `a % 4`: the remainder takes the sign of `a`. */
  function JsRem4(a: int): (r: int)
    ensures -4 < r < 4 && (a - r) % 4 == 0
    ensures a >= 0 ==> r >= 0
    ensures a <= 0 ==> r <= 0
  {
    if a >= 0 then a % 4 else -((-a) % 4)
  }

  /** `((p + q) % 4 + 4) % 4`: the power of two merged moves, reduced into 0..3. */
  function MergePower(p: int, q: int): (m: int)
    ensures 0 <= m < 4
    ensures (p + q - m) % 4 == 0
  {
    JsRem4(JsRem4(p + q) + 4)
  }

  /** One pass of the loop in `simplifySteps`: the stack after `step` is processed; it grows or shrinks by at most one. */
  function Push(stack: seq<Entry>, step: string): (r: seq<Entry>)
    ensures |stack| - 1 <= |r| <= |stack| + 1
  {
    match ParseMoveToken(step)
    case None => stack + [Entry(step, 0)]
    case Some(move) =>
      if |stack| > 0 && stack[|stack| - 1].base == move.base then
        var merged := MergePower(stack[|stack| - 1].power, move.power);
        if merged != 0 then stack[..|stack| - 1] + [Entry(move.base, merged)]
        else stack[..|stack| - 1]
      else
        stack + [move]
  }

  /** Only the top entry can change: every entry below it is kept. */
  lemma PushKeepsBelow(stack: seq<Entry>, step: string)
    requires |stack| > 0
    ensures var r := Push(stack, step);
      |stack| - 1 <= |r| && forall i :: 0 <= i < |stack| - 1 ==> r[i] == stack[i]
  {
    var r := Push(stack, step);
    var n := |stack| - 1;
    match ParseMoveToken(step)
    case None =>
      assert r == stack + [Entry(step, 0)];
    case Some(move) =>
      if stack[n].base == move.base {
        assert r[..n] == stack[..n];
      } else {
        assert r == stack + [move];
      }
  }

  /** The stack after processing `steps` in order, starting from `stack`. */
  function ReduceFrom(stack: seq<Entry>, steps: seq<string>): seq<Entry>
    decreases |steps|
  {
    if steps == [] then stack
    else Push(ReduceFrom(stack, steps[..|steps| - 1]), steps[|steps| - 1])
  }

  function Reduce(steps: seq<string>): seq<Entry> {
    ReduceFrom([], steps)
  }

  /** The display form of an entry; only powers 0 to 3 are spelled out, anything else shows the bare base. */
  function RenderEntry(e: Entry): (t: string)
    ensures |e.base| <= |t| && t[..|e.base|] == e.base && IsSuffix(t[|e.base|..])
    ensures t == e.base || t == e.base + "2" || t == e.base + "'"
    ensures e.power == 2 ==> t == e.base + "2"
    ensures e.power == 3 ==> t == e.base + "'"
  {
    if e.power == 0 then e.base
    else if e.power == 1 then e.base
    else if e.power == 2 then e.base + "2"
    else if e.power == 3 then e.base + "'"
    else e.base
  }

  /** The tokens of a stack, bottom to top, each starting with its entry's base. */
  function Render(stack: seq<Entry>): (r: seq<string>)
    ensures |r| == |stack|
    ensures forall i :: 0 <= i < |r| ==> |stack[i].base| <= |r[i]| && r[i][..|stack[i].base|] == stack[i].base
  {
    seq(|stack|, i requires 0 <= i < |stack| => RenderEntry(stack[i]))
  }

  /** What `simplifySteps` returns for `steps`. */
  function Simplify(steps: seq<string>): seq<string> {
    Render(Reduce(steps))
  }

  /** The tokens of `steps` that `ParseMoveToken` rejects, in order. */
  function UnknownSteps(steps: seq<string>): seq<string>
    decreases |steps|
  {
    if steps == [] then []
    else
      var last := steps[|steps| - 1];
      UnknownSteps(steps[..|steps| - 1]) + (if ParseMoveToken(last).None? then [last] else [])
  }

  /**
   * `simplifySteps`: scans the steps with a stack, merging a move into the top entry
   * when both have the same base, dropping both when the merged power is 0, and
   * keeping unrecognised tokens as they are.
   */
  method SimplifySteps(steps: seq<string>) returns (simplified: seq<string>)
    ensures simplified == Simplify(steps)
    ensures |simplified| <= |steps|
    ensures UnknownSteps(simplified) == UnknownSteps(steps)
  {
    var stack: seq<Entry> := [];
    for i := 0 to |steps|
      invariant stack == Reduce(steps[..i])
    {
      assert steps[..i + 1][..i] == steps[..i];
      var step := steps[i];
      var parsed := ParseMoveToken(step);
      if parsed.None? {
        stack := stack + [Entry(step, 0)];
        continue;
      }
      var move := parsed.value;
      if |stack| > 0 && stack[|stack| - 1].base == move.base {
        var merged := MergePower(stack[|stack| - 1].power, move.power);
        stack := stack[..|stack| - 1];
        if merged != 0 {
          stack := stack + [Entry(move.base, merged)];
        }
      } else {
        stack := stack + [move];
      }
    }
    assert steps[..|steps|] == steps;
    simplified := Render(stack);
    ReduceShrinks(steps);
    SimplifyKeepsUnknownSteps(steps);
  }

  // ---------------------------------------------------------------------------
  // The stack invariant
  // ---------------------------------------------------------------------------

  /**
   * What every iteration keeps true of the stack: a recognised entry has a power
   * in {-1, 1, 2, 3}; an unrecognised one is a token `ParseMoveToken` rejects and
   * has power 0; and a recognised entry never sits directly on an entry with the
   * same base (two identical unrecognised tokens may be neighbours).
   */
  ghost predicate Canonical(stack: seq<Entry>) {
    && (forall i :: 0 <= i < |stack| && IsBase(stack[i].base) ==> stack[i].power in {-1, 1, 2, 3})
    && (forall i :: 0 <= i < |stack| && !IsBase(stack[i].base) ==>
          stack[i].power == 0 && ParseMoveToken(stack[i].base).None?)
    && (forall i :: 0 < i < |stack| && IsBase(stack[i].base) ==> stack[i - 1].base != stack[i].base)
  }

  lemma CanonicalPrefix(stack: seq<Entry>)
    requires Canonical(stack) && stack != []
    ensures Canonical(stack[..|stack| - 1])
  {
  }

  lemma CanonicalAppend(stack: seq<Entry>, e: Entry)
    requires Canonical(stack)
    requires IsBase(e.base) ==> e.power in {-1, 1, 2, 3} && (stack != [] ==> stack[|stack| - 1].base != e.base)
    requires !IsBase(e.base) ==> e.power == 0 && ParseMoveToken(e.base).None?
    ensures Canonical(stack + [e])
  {
    var r := stack + [e];
    assert forall i :: 0 <= i < |stack| ==> r[i] == stack[i];
  }

  lemma PushCanonical(stack: seq<Entry>, step: string)
    requires Canonical(stack)
    ensures Canonical(Push(stack, step))
  {
    var n := |stack|;
    match ParseMoveToken(step)
    case None =>
      if IsBase(step) {
        BaseIsMove(step);
      }
      CanonicalAppend(stack, Entry(step, 0));
    case Some(move) =>
      if n > 0 && stack[n - 1].base == move.base {
        var rest := stack[..n - 1];
        CanonicalPrefix(stack);
        var merged := MergePower(stack[n - 1].power, move.power);
        if merged != 0 {
          assert rest != [] ==> rest[|rest| - 1].base == stack[n - 2].base != stack[n - 1].base;
          CanonicalAppend(rest, Entry(move.base, merged));
        }
      } else {
        CanonicalAppend(stack, move);
      }
  }

  /** The stack invariant holds after every prefix of the steps. */
  lemma {:induction false} ReduceCanonical(steps: seq<string>)
    ensures Canonical(Reduce(steps))
    decreases |steps|
  {
    if steps != [] {
      ReduceCanonical(steps[..|steps| - 1]);
      PushCanonical(Reduce(steps[..|steps| - 1]), steps[|steps| - 1]);
    }
  }

  /** Simplifying never lengthens the list of steps. */
  lemma {:induction false} ReduceShrinks(steps: seq<string>)
    ensures |Reduce(steps)| <= |steps|
    ensures |Simplify(steps)| <= |steps|
    decreases |steps|
  {
    if steps != [] {
      ReduceShrinks(steps[..|steps| - 1]);
    }
  }

  // ---------------------------------------------------------------------------
  // Unrecognised tokens
  // ---------------------------------------------------------------------------

  /** The bases of the unrecognised entries of a stack, bottom to top. */
  function UnknownEntries(stack: seq<Entry>): seq<string>
    decreases |stack|
  {
    if stack == [] then []
    else
      var last := stack[|stack| - 1];
      UnknownEntries(stack[..|stack| - 1]) + (if IsBase(last.base) then [] else [last.base])
  }

  lemma PushUnknownEntries(stack: seq<Entry>, step: string)
    ensures UnknownEntries(Push(stack, step))
            == UnknownEntries(stack) + (if ParseMoveToken(step).None? then [step] else [])
  {
    match ParseMoveToken(step)
    case None =>
      assert (stack + [Entry(step, 0)])[..|stack|] == stack;
      if IsBase(step) {
        BaseIsMove(step);
      }
    case Some(move) =>
      if |stack| > 0 && stack[|stack| - 1].base == move.base {
        var rest := stack[..|stack| - 1];
        assert (rest + [Entry(move.base, MergePower(stack[|stack| - 1].power, move.power))])[..|rest|] == rest;
      } else {
        assert (stack + [move])[..|stack|] == stack;
      }
  }

  lemma {:induction false} ReduceUnknownEntries(steps: seq<string>)
    ensures UnknownEntries(Reduce(steps)) == UnknownSteps(steps)
    decreases |steps|
  {
    if steps != [] {
      ReduceUnknownEntries(steps[..|steps| - 1]);
      PushUnknownEntries(Reduce(steps[..|steps| - 1]), steps[|steps| - 1]);
    }
  }

  /** Rendering a canonical stack shows each unrecognised entry as its own token and every other entry as a move. */
  lemma {:induction false} RenderUnknownSteps(stack: seq<Entry>)
    requires Canonical(stack)
    ensures UnknownSteps(Render(stack)) == UnknownEntries(stack)
    decreases |stack|
  {
    if stack != [] {
      var n := |stack| - 1;
      var e := stack[n];
      assert Render(stack)[..n] == Render(stack[..n]);
      assert Render(stack)[n] == RenderEntry(e);
      RenderUnknownSteps(stack[..n]);
      if IsBase(e.base) {
        RenderEntryReparses(e);
      }
    }
  }

  /**
   * Unrecognised tokens come out verbatim and in their original order: the
   * rejected tokens of the output are exactly the rejected tokens of the input.
   */
  lemma SimplifyKeepsUnknownSteps(steps: seq<string>)
    ensures UnknownSteps(Simplify(steps)) == UnknownSteps(steps)
  {
    ReduceCanonical(steps);
    RenderUnknownSteps(Reduce(steps));
    ReduceUnknownEntries(steps);
  }

  // ---------------------------------------------------------------------------
  // Rendering, and what re-simplifying the rendered output gives
  // ---------------------------------------------------------------------------

  /** The power a rendered entry is read back with: the bare base reads as 1, `'` as -1. */
  function ReadBackPower(p: int): int {
    if p == 2 then 2 else if p == 3 then -1 else 1
  }

  /**
   * A recognised entry renders as its base, its base and `2`, or its base and `'`,
   * and reads back with the same base. Powers 1, 2 and 3 read back unchanged modulo 4;
   * an unmerged prime (power -1) renders as the bare base and reads back as power 1.
   */
  lemma RenderEntryReparses(e: Entry)
    requires IsBase(e.base) && e.power in {-1, 1, 2, 3}
    ensures ParseMoveToken(RenderEntry(e)) == Some(Entry(e.base, ReadBackPower(e.power)))
    ensures e.power != -1 ==> (ReadBackPower(e.power) - e.power) % 4 == 0
  {
    var suffix := if e.power == 2 then "2" else if e.power == 3 then "'" else "";
    assert RenderEntry(e) == e.base + suffix;
    ParseMoveTokenAccepts(e.base, suffix);
  }

  /** The entry a rendered entry reads back as: recognised entries get their read-back power, the rest stay. */
  function ReadBackEntry(e: Entry): Entry {
    if IsBase(e.base) then Entry(e.base, ReadBackPower(e.power)) else e
  }

  function ReadBack(stack: seq<Entry>): seq<Entry> {
    seq(|stack|, i requires 0 <= i < |stack| => ReadBackEntry(stack[i]))
  }

  lemma {:induction false} ReduceRender(stack: seq<Entry>)
    requires Canonical(stack)
    ensures Reduce(Render(stack)) == ReadBack(stack)
    decreases |stack|
  {
    if |stack| > 0 {
      var n := |stack| - 1;
      CanonicalPrefix(stack);
      ReduceRender(stack[..n]);
      RenderSnoc(stack);
      ReadBackSnoc(stack);
      PushRendered(ReadBack(stack[..n]), stack[n]);
    }
  }

  lemma RenderSnoc(stack: seq<Entry>)
    requires |stack| > 0
    ensures var n := |stack| - 1;
      Reduce(Render(stack)) == Push(Reduce(Render(stack[..n])), RenderEntry(stack[n]))
  {
    var n := |stack| - 1;
    assert Render(stack)[..n] == Render(stack[..n]);
  }

  lemma ReadBackSnoc(stack: seq<Entry>)
    requires |stack| > 0
    ensures var n := |stack| - 1;
      ReadBack(stack) == ReadBack(stack[..n]) + [ReadBackEntry(stack[n])]
      && (n > 0 ==> ReadBack(stack[..n])[n - 1].base == stack[n - 1].base)
  {
    var n := |stack| - 1;
    assert ReadBack(stack) == ReadBack(stack[..n]) + [ReadBackEntry(stack[n])];
  }

  /** Pushing the rendering of an entry that cannot merge with the top appends what it reads back as. */
  lemma PushRendered(before: seq<Entry>, e: Entry)
    requires IsBase(e.base) ==> e.power in {-1, 1, 2, 3} && (|before| > 0 ==> before[|before| - 1].base != e.base)
    requires !IsBase(e.base) ==> e.power == 0 && ParseMoveToken(e.base).None?
    ensures Push(before, RenderEntry(e)) == before + [ReadBackEntry(e)]
  {
    if IsBase(e.base) {
      RenderEntryReparses(e);
    }
  }

  /**
   * Simplifying the output again keeps every entry's base and the number of steps;
   * only the powers are read back, so `R'` (power 3) becomes an unmerged prime,
   * and an unmerged prime is shown as the bare base.
   */
  lemma ResimplifyKeepsShape(steps: seq<string>)
    ensures Reduce(Simplify(steps)) == ReadBack(Reduce(steps))
    ensures |Simplify(Simplify(steps))| == |Simplify(steps)|
  {
    ReduceCanonical(steps);
    ReduceRender(Reduce(steps));
  }

  /**
   * Simplification is not idempotent: three quarter turns `R R R` give `R'`, and
   * simplifying `R'` again gives `R`.
   */
  lemma SimplifyNotIdempotent(b: string)
    requires IsBase(b)
    ensures Simplify([b, b, b]) == [b + "'"]
    ensures Simplify([b + "'"]) == [b]
  {
    ThreeQuarterTurns(b);
    assert RenderEntry(Entry(b, 3)) == b + "'";
    OnePrime(b);
  }

  /** Two equal quarter turns `R R` simplify to the half turn `R2`. */
  lemma SimplifyHalfTurn(b: string)
    requires IsBase(b)
    ensures Simplify([b, b]) == [b + "2"]
  {
    var once := Entry(b, 1);
    BaseIsMove(b);
    assert [] + [b] == [b] && [] + [once] == [once];
    ReduceNewBase([], b, once, []);
    assert MergePower(1, 1) == 2;
    assert [b] + [b] == [b, b] && [] + [Entry(b, 2)] == [Entry(b, 2)];
    ReduceMerge([b], b, once, [], once);
    assert RenderEntry(Entry(b, 2)) == b + "2";
  }

  /** `R R R` leaves one entry with power 3. */
  lemma ThreeQuarterTurns(b: string)
    requires IsBase(b)
    ensures Reduce([b, b, b]) == [Entry(b, 3)]
  {
    var once := Entry(b, 1);
    BaseIsMove(b);
    assert [] + [b] == [b] && [] + [once] == [once];
    ReduceNewBase([], b, once, []);
    assert MergePower(1, 1) == 2;
    assert [b] + [b] == [b, b] && [] + [Entry(b, 2)] == [Entry(b, 2)];
    ReduceMerge([b], b, once, [], once);
    assert MergePower(2, 1) == 3;
    assert [b, b] + [b] == [b, b, b] && [] + [Entry(b, 3)] == [Entry(b, 3)];
    ReduceMerge([b, b], b, once, [], Entry(b, 2));
  }

  /** `R'` alone leaves one entry with power -1. */
  lemma OnePrime(b: string)
    requires IsBase(b)
    ensures Reduce([b + "'"]) == [Entry(b, -1)]
  {
    ParseMoveTokenAccepts(b, "'");
    ReduceNewBase([], b + "'", Entry(b, -1), []);
    assert [] + [b + "'"] == [b + "'"];
  }

  /** A move on the base of the top entry merges into it when the merged power is not 0. */
  lemma ReduceMerge(steps: seq<string>, step: string, move: Entry, rest: seq<Entry>, top: Entry)
    requires Reduce(steps) == rest + [top] && ParseMoveToken(step) == Some(move)
    requires top.base == move.base && MergePower(top.power, move.power) != 0
    ensures Reduce(steps + [step]) == rest + [Entry(move.base, MergePower(top.power, move.power))]
  {
    ReduceSnoc(steps, step);
    var stack := rest + [top];
    assert stack[..|rest|] == rest;
    PushSameBase(stack, step, move);
  }

  lemma ReduceSnoc(steps: seq<string>, step: string)
    ensures Reduce(steps + [step]) == Push(Reduce(steps), step)
  {
    assert (steps + [step])[..|steps|] == steps;
  }

  lemma MergePowerZero(p: int, q: int)
    ensures MergePower(p, q) == 0 <==> (p + q) % 4 == 0
  {
    var m := MergePower(p, q);
    if (p + q) % 4 == 0 {
      Multiples(p + q, p + q - m);
      SameResidue(m, 0);
    }
  }

  /** Sums and differences of multiples of 4 are multiples of 4. */
  lemma Multiples(a: int, b: int)
    requires a % 4 == 0 && b % 4 == 0
    ensures (a + b) % 4 == 0 && (a - b) % 4 == 0
  {
  }

  /** Two residues in 0..3 that agree modulo 4 are equal. */
  lemma SameResidue(m1: int, m2: int)
    requires 0 <= m1 < 4 && 0 <= m2 < 4 && (m1 - m2) % 4 == 0
    ensures m1 == m2
  {
  }

  /** Two moves on the same base merge into one with the summed power modulo 4, or cancel. */
  lemma SimplifyPair(a: string, b: string)
    requires ParseMoveToken(a).Some? && ParseMoveToken(b).Some?
    requires ParseMoveToken(a).value.base == ParseMoveToken(b).value.base
    ensures var x, y := ParseMoveToken(a).value, ParseMoveToken(b).value;
            var merged := MergePower(x.power, y.power);
            && (merged == 0 <==> (x.power + y.power) % 4 == 0)
            && Reduce([a, b]) == if merged == 0 then [] else [Entry(x.base, merged)]
  {
    var x, y := ParseMoveToken(a).value, ParseMoveToken(b).value;
    MergePowerZero(x.power, y.power);
    ReduceSnoc([], a);
    assert [] + [a] == [a];
    ReduceSnoc([a], b);
    assert [a] + [b] == [a, b];
  }

  /** An unrecognised token is never merged, not even with an identical neighbour. */
  lemma UnknownTokensNeverMerge(t: string)
    requires ParseMoveToken(t).None?
    ensures Simplify([t, t]) == [t, t]
  {
    ReduceSnoc([], t);
    assert [] + [t] == [t];
    ReduceSnoc([t], t);
    assert [t] + [t] == [t, t];
    assert Reduce([t, t]) == [Entry(t, 0), Entry(t, 0)];
  }

  /** Pushing a move whose base differs from the top entry's just adds it. */
  lemma PushNewBase(stack: seq<Entry>, step: string, move: Entry)
    requires ParseMoveToken(step) == Some(move)
    requires stack != [] ==> stack[|stack| - 1].base != move.base
    ensures Push(stack, step) == stack + [move]
  {
  }

  /**
   * A commutator-like `R U R' U'` on two different bases keeps all four moves, and
   * its primes, never merged, are shown as bare bases: `R U R U`.
   */
  lemma AlternatingBasesKeepFourMoves(b1: string, b2: string)
    requires IsBase(b1) && IsBase(b2) && b1 != b2
    ensures Simplify([b1, b2, b1 + "'", b2 + "'"]) == [b1, b2, b1, b2]
  {
    var stack := AlternatingStack(b1, b2);
    assert Render(stack) == [b1, b2, b1, b2];
  }

  lemma AlternatingStack(b1: string, b2: string) returns (stack: seq<Entry>)
    requires IsBase(b1) && IsBase(b2) && b1 != b2
    ensures stack == Reduce([b1, b2, b1 + "'", b2 + "'"])
    ensures stack == [Entry(b1, 1), Entry(b2, 1), Entry(b1, -1), Entry(b2, -1)]
  {
    var x1, x2, y1, y2 := Entry(b1, 1), Entry(b2, 1), Entry(b1, -1), Entry(b2, -1);
    BaseIsMove(b1);
    BaseIsMove(b2);
    ParseMoveTokenAccepts(b1, "'");
    ParseMoveTokenAccepts(b2, "'");
    ReduceNewBase([], b1, x1, []);
    assert [] + [b1] == [b1];
    ReduceNewBase([b1], b2, x2, [x1]);
    assert [b1] + [b2] == [b1, b2];
    ReduceNewBase([b1, b2], b1 + "'", y1, [x1, x2]);
    assert [b1, b2] + [b1 + "'"] == [b1, b2, b1 + "'"];
    ReduceNewBase([b1, b2, b1 + "'"], b2 + "'", y2, [x1, x2, y1]);
    assert [b1, b2, b1 + "'"] + [b2 + "'"] == [b1, b2, b1 + "'", b2 + "'"];
    stack := [x1, x2, y1, y2];
  }

  /** A move whose base differs from the top of the stack is pushed as it is. */
  lemma ReduceNewBase(steps: seq<string>, step: string, move: Entry, stack: seq<Entry>)
    requires Reduce(steps) == stack && ParseMoveToken(step) == Some(move)
    requires |stack| > 0 ==> stack[|stack| - 1].base != move.base
    ensures Reduce(steps + [step]) == stack + [move]
  {
    ReduceSnoc(steps, step);
    PushNewBase(stack, step, move);
  }

  predicate AllMoves(steps: seq<string>) {
    forall i :: 0 <= i < |steps| ==> ParseMoveToken(steps[i]).Some?
  }

  /** The inverse of one move: a quarter turn becomes its prime, a prime a quarter turn, a half turn stays. */
  function InvertStep(step: string): string
    requires ParseMoveToken(step).Some?
  {
    var move := ParseMoveToken(step).value;
    move.base + (if move.power == 1 then "'" else if move.power == -1 then "" else "2")
  }

  /** The inverse of a move sequence: the steps reversed, each one inverted. */
  function InvertSteps(steps: seq<string>): seq<string>
    requires AllMoves(steps)
  {
    seq(|steps|, i requires 0 <= i < |steps| => InvertStep(steps[|steps| - 1 - i]))
  }

  lemma InvertStepMove(step: string)
    requires ParseMoveToken(step).Some?
    ensures var move := ParseMoveToken(step).value;
            ParseMoveToken(InvertStep(step)).Some?
            && ParseMoveToken(InvertStep(step)).value.base == move.base
            && (ParseMoveToken(InvertStep(step)).value.power + move.power) % 4 == 0
            && ParseMoveToken(InvertStep(InvertStep(step))) == ParseMoveToken(step)
  {
    var move := ParseMoveToken(step).value;
    var suffix := if move.power == 1 then "'" else if move.power == -1 then "" else "2";
    ParseMoveTokenAccepts(move.base, suffix);
    var back := if move.power == 1 then "" else if move.power == -1 then "'" else "2";
    ParseMoveTokenAccepts(move.base, back);
  }

  /** Stacks with the same bases whose powers agree modulo 4. */
  ghost predicate SameTurns(a: seq<Entry>, b: seq<Entry>) {
    && |a| == |b|
    && forall i :: 0 <= i < |a| ==> a[i].base == b[i].base && (a[i].power - b[i].power) % 4 == 0
  }

  lemma MergePowerModulo(p1: int, p2: int, q: int)
    requires (p1 - p2) % 4 == 0
    ensures MergePower(p1, q) == MergePower(p2, q)
  {
    var m1, m2 := MergePower(p1, q), MergePower(p2, q);
    Multiples(p1 + q - m1, p2 + q - m2);
    Multiples(p1 - p2, (p1 + q - m1) - (p2 + q - m2));
    SameResidue(m1, m2);
  }

  lemma SameTurnsAppend(a: seq<Entry>, b: seq<Entry>, x: Entry, y: Entry)
    requires SameTurns(a, b)
    requires x.base == y.base && (x.power - y.power) % 4 == 0
    ensures SameTurns(a + [x], b + [y])
  {
  }

  lemma SameTurnsPrefix(a: seq<Entry>, b: seq<Entry>)
    requires SameTurns(a, b) && a != []
    ensures SameTurns(a[..|a| - 1], b[..|b| - 1])
  {
  }

  /** The stack after a step depends on the old powers only modulo 4. */
  lemma PushSameTurns(a: seq<Entry>, b: seq<Entry>, step: string)
    requires SameTurns(a, b)
    ensures SameTurns(Push(a, step), Push(b, step))
  {
    var n := |a|;
    match ParseMoveToken(step)
    case None =>
      SameTurnsAppend(a, b, Entry(step, 0), Entry(step, 0));
    case Some(move) =>
      if n > 0 && a[n - 1].base == move.base {
        assert b[n - 1].base == move.base;
        MergePowerModulo(a[n - 1].power, b[n - 1].power, move.power);
        var merged := MergePower(a[n - 1].power, move.power);
        SameTurnsPrefix(a, b);
        if merged != 0 {
          SameTurnsAppend(a[..n - 1], b[..n - 1], Entry(move.base, merged), Entry(move.base, merged));
        }
      } else {
        assert n > 0 ==> b[n - 1].base != move.base;
        SameTurnsAppend(a, b, move, move);
      }
  }

  lemma {:induction false} ReduceFromSameTurns(a: seq<Entry>, b: seq<Entry>, steps: seq<string>)
    requires SameTurns(a, b)
    ensures SameTurns(ReduceFrom(a, steps), ReduceFrom(b, steps))
    decreases |steps|
  {
    if steps != [] {
      var prefix := steps[..|steps| - 1];
      ReduceFromSameTurns(a, b, prefix);
      PushSameTurns(ReduceFrom(a, prefix), ReduceFrom(b, prefix), steps[|steps| - 1]);
    }
  }

  lemma {:induction false} ReduceFromAppend(stack: seq<Entry>, s: seq<string>, t: seq<string>)
    ensures ReduceFrom(stack, s + t) == ReduceFrom(ReduceFrom(stack, s), t)
    decreases |t|
  {
    if t == [] {
      assert s + t == s;
    } else {
      var u := s + t;
      assert u[..|u| - 1] == s + t[..|t| - 1];
      assert u[|u| - 1] == t[|t| - 1];
      ReduceFromAppend(stack, s, t[..|t| - 1]);
    }
  }

  /** Pushing a move onto an entry with the same base replaces the entry by the merge, or drops both. */
  lemma PushSameBase(stack: seq<Entry>, step: string, move: Entry)
    requires ParseMoveToken(step) == Some(move)
    requires stack != [] && stack[|stack| - 1].base == move.base
    ensures var merged := MergePower(stack[|stack| - 1].power, move.power);
            Push(stack, step) == if merged != 0 then stack[..|stack| - 1] + [Entry(move.base, merged)]
                                 else stack[..|stack| - 1]
  {
  }

  lemma SameTurnsReflexive(a: seq<Entry>)
    ensures SameTurns(a, a)
  {
  }

  lemma MergeTwice(t: int, p: int, q: int)
    requires (p + q) % 4 == 0
    ensures (MergePower(MergePower(t, p), q) - t) % 4 == 0
  {
    var m1 := MergePower(t, p);
    var m2 := MergePower(m1, q);
    Multiples(t + p - m1, m1 + q - m2);
    Multiples(p + q, (t + p - m1) + (m1 + q - m2));
  }

  /** A move followed by its inverse leaves a canonical stack as it was, up to powers modulo 4. */
  lemma PushInverse(stack: seq<Entry>, step: string)
    requires Canonical(stack) && ParseMoveToken(step).Some?
    ensures SameTurns(Push(Push(stack, step), InvertStep(step)), stack)
  {
    var n := |stack|;
    var inv := InvertStep(step);
    var move, inverse := InverseMove(step);
    if n > 0 && stack[n - 1].base == move.base {
      var rest, top := CanonicalTop(stack);
      PushInverseOnSameBase(rest, top, step, move, inv, inverse);
    } else {
      PushInverseOnNewBase(stack, step, move, inv, inverse);
    }
  }

  /** A move and its inverse parse with the same base and powers summing to a multiple of 4. */
  lemma InverseMove(step: string) returns (move: Entry, inverse: Entry)
    requires ParseMoveToken(step).Some?
    ensures ParseMoveToken(step) == Some(move) && ParseMoveToken(InvertStep(step)) == Some(inverse)
    ensures IsBase(move.base) && inverse.base == move.base && (move.power + inverse.power) % 4 == 0
  {
    InvertStepMove(step);
    move, inverse := ParseMoveToken(step).value, ParseMoveToken(InvertStep(step)).value;
  }

  /** The top entry of a canonical stack whose top is a move, and the stack below it. */
  lemma CanonicalTop(stack: seq<Entry>) returns (rest: seq<Entry>, top: Entry)
    requires Canonical(stack) && stack != [] && IsBase(stack[|stack| - 1].base)
    ensures stack == rest + [top] && top == stack[|stack| - 1]
    ensures top.power in {-1, 1, 2, 3}
    ensures rest != [] ==> rest[|rest| - 1].base != top.base
  {
    var n := |stack| - 1;
    rest, top := stack[..n], stack[n];
    assert stack == rest + [top];
  }

  lemma PushInverseOnNewBase(stack: seq<Entry>, step: string, move: Entry, inv: string, inverse: Entry)
    requires ParseMoveToken(step) == Some(move) && ParseMoveToken(inv) == Some(inverse)
    requires inverse.base == move.base && (move.power + inverse.power) % 4 == 0
    requires |stack| > 0 ==> stack[|stack| - 1].base != move.base
    ensures SameTurns(Push(Push(stack, step), inv), stack)
  {
    PushNewBase(stack, step, move);
    var once := stack + [move];
    assert once[..|stack|] == stack;
    MergePowerZero(move.power, inverse.power);
    PushCancels(once, stack, inv, inverse);
    SameTurnsReflexive(stack);
  }

  /** A move that cancels the top entry removes it. */
  lemma PushCancels(stack: seq<Entry>, rest: seq<Entry>, step: string, move: Entry)
    requires ParseMoveToken(step) == Some(move) && stack != [] && stack[..|stack| - 1] == rest
    requires stack[|stack| - 1].base == move.base && MergePower(stack[|stack| - 1].power, move.power) == 0
    ensures Push(stack, step) == rest
  {
  }

  lemma PushInverseOnSameBase(rest: seq<Entry>, top: Entry, step: string, move: Entry, inv: string, inverse: Entry)
    requires ParseMoveToken(step) == Some(move) && ParseMoveToken(inv) == Some(inverse)
    requires inverse.base == move.base == top.base && (move.power + inverse.power) % 4 == 0
    requires top.power in {-1, 1, 2, 3}
    requires rest != [] ==> rest[|rest| - 1].base != top.base
    ensures SameTurns(Push(Push(rest + [top], step), inv), rest + [top])
  {
    var stack := rest + [top];
    assert stack[..|rest|] == rest;
    PushSameBase(stack, step, move);
    var merged := MergePower(top.power, move.power);
    if merged != 0 {
      InverseAfterMerge(rest, top, inv, inverse, move.power, merged);
    } else {
      InverseAfterCancel(rest, top, inv, inverse, move.power);
    }
  }

  /** The move merged into the top entry: the inverse merges into it again and restores its power modulo 4. */
  lemma InverseAfterMerge(rest: seq<Entry>, top: Entry, inv: string, inverse: Entry, p: int, merged: int)
    requires ParseMoveToken(inv) == Some(inverse) && inverse.base == top.base
    requires (p + inverse.power) % 4 == 0 && merged == MergePower(top.power, p) && merged != 0
    requires top.power % 4 != 0
    ensures SameTurns(Push(rest + [Entry(top.base, merged)], inv), rest + [top])
  {
    var once := rest + [Entry(top.base, merged)];
    assert once[..|rest|] == rest;
    PushSameBase(once, inv, inverse);
    MergeTwice(top.power, p, inverse.power);
    SameTurnsReflexive(rest);
    SameTurnsAppend(rest, rest, Entry(top.base, MergePower(merged, inverse.power)), top);
  }

  /** The move cancelled the top entry: the inverse lands on a different base and is pushed as the old top, modulo 4. */
  lemma InverseAfterCancel(rest: seq<Entry>, top: Entry, inv: string, inverse: Entry, p: int)
    requires ParseMoveToken(inv) == Some(inverse) && inverse.base == top.base
    requires (p + inverse.power) % 4 == 0 && MergePower(top.power, p) == 0
    requires rest != [] ==> rest[|rest| - 1].base != top.base
    ensures SameTurns(Push(rest, inv), rest + [top])
  {
    PushNewBase(rest, inv, inverse);
    MergePowerZero(top.power, p);
    Multiples(top.power + p, p + inverse.power);
    SameTurnsReflexive(rest);
    SameTurnsAppend(rest, rest, inverse, top);
  }

  /** A move sequence followed by its reverse-and-negate inverse simplifies to nothing. */
  lemma {:induction false} SimplifyCancelsInverse(steps: seq<string>)
    requires AllMoves(steps)
    ensures Reduce(steps + InvertSteps(steps)) == []
    ensures Simplify(steps + InvertSteps(steps)) == []
    decreases |steps|
  {
    if steps != [] {
      var n := |steps| - 1;
      var prefix, step := steps[..n], steps[n];
      var inverse := InvertStep(step);
      assert InvertSteps(steps) == [inverse] + InvertSteps(prefix);
      assert steps + InvertSteps(steps) == (prefix + [step, inverse]) + InvertSteps(prefix);
      ReduceFromAppend([], prefix + [step, inverse], InvertSteps(prefix));
      var pair := prefix + [step, inverse];
      assert pair[..|pair| - 1] == prefix + [step];
      assert (prefix + [step])[..n] == prefix;
      assert ReduceFrom([], pair) == Push(Push(Reduce(prefix), step), inverse);
      ReduceCanonical(prefix);
      PushInverse(Reduce(prefix), step);
      ReduceFromSameTurns(ReduceFrom([], pair), Reduce(prefix), InvertSteps(prefix));
      SimplifyCancelsInverse(prefix);
      ReduceFromAppend([], prefix, InvertSteps(prefix));
    }
  }

  /**
   * The inverse of a move sequence followed by the sequence itself simplifies to
   * nothing: the identity verdict `applyToCase` reaches over the steps of a case's
   * setup followed by a candidate whose inverse that setup is.
   */
  lemma InverseThenSteps(steps: seq<string>)
    requires AllMoves(steps)
    ensures AllMoves(InvertSteps(steps))
    ensures Reduce(InvertSteps(steps) + steps) == []
    ensures Simplify(InvertSteps(steps) + steps) == []
  {
    var setup := InvertSteps(steps);
    InvertStepsTwice(steps);
    SimplifyCancelsInverse(setup);
    ReduceFromAppend([], setup, InvertSteps(setup));
    ReduceFromAppend([], setup, steps);
    ReduceFromSameMoves(Reduce(setup), InvertSteps(setup), steps);
  }

  /** Two step lists of moves that parse alike, position by position. */
  predicate SameMoves(a: seq<string>, b: seq<string>) {
    && |a| == |b|
    && forall i :: 0 <= i < |a| ==> ParseMoveToken(a[i]).Some? && ParseMoveToken(a[i]) == ParseMoveToken(b[i])
  }

  /** Inverting twice gives moves that parse as the original ones (`R2'` comes back as `R2`). */
  lemma InvertStepsTwice(steps: seq<string>)
    requires AllMoves(steps)
    ensures AllMoves(InvertSteps(steps))
    ensures SameMoves(InvertSteps(InvertSteps(steps)), steps)
  {
    var n := |steps|;
    var once := InvertSteps(steps);
    forall i | 0 <= i < n
      ensures ParseMoveToken(once[i]).Some?
    {
      InvertStepMove(steps[n - 1 - i]);
    }
    var twice := InvertSteps(once);
    forall i | 0 <= i < n
      ensures ParseMoveToken(twice[i]).Some? && ParseMoveToken(twice[i]) == ParseMoveToken(steps[i])
    {
      assert twice[i] == InvertStep(InvertStep(steps[i]));
      InvertStepMove(steps[i]);
    }
  }

  lemma PushSameMove(stack: seq<Entry>, s: string, t: string)
    requires ParseMoveToken(s).Some? && ParseMoveToken(s) == ParseMoveToken(t)
    ensures Push(stack, s) == Push(stack, t)
  {
  }

  /** The stack depends on a move only through what it parses as. */
  lemma {:induction false} ReduceFromSameMoves(stack: seq<Entry>, a: seq<string>, b: seq<string>)
    requires SameMoves(a, b)
    ensures ReduceFrom(stack, a) == ReduceFrom(stack, b)
    decreases |a|
  {
    if |a| > 0 {
      var n := |a| - 1;
      assert SameMoves(a[..n], b[..n]);
      ReduceFromSameMoves(stack, a[..n], b[..n]);
      PushSameMove(ReduceFrom(stack, a[..n]), a[n], b[n]);
    }
  }

  // ---------------------------------------------------------------------------
  // Parsing, identity and the case verifier
  // ---------------------------------------------------------------------------

  /** `normalized.length ? normalized.split(/\s+/) : []` */
  function SplitSteps(normalized: string): (steps: seq<string>)
    ensures normalized == "" ==> steps == []
    ensures Concat(steps) == RemoveSpace(normalized)
    ensures forall i :: 0 <= i < |steps| ==> NoSpace(steps[i])
    ensures Trimmed(normalized) ==> forall i :: 0 <= i < |steps| ==> steps[i] != ""
  {
    if |normalized| == 0 then
      []
    else
      SplitFacts(normalized);
      Split(normalized)
  }

  lemma SplitFacts(s: string)
    requires s != ""
    ensures Concat(Split(s)) == RemoveSpace(s)
    ensures Trimmed(s) ==> forall i :: 0 <= i < |Split(s)| ==> Split(s)[i] != ""
  {
    SplitKeepsNonSpace(s);
    if Trimmed(s) {
      SplitTrimmedNonEmpty(s);
    }
  }

  /**
   * `parse`: the library's expansion of `algStr`, trimmed and split into
   * whitespace-free, non-empty steps; fails with the parse error message exactly
   * when the expansion fails.
   */
  function Parse(algStr: string, expand: string -> Option<string>): (r: Result<ParsedAlg, string>)
    ensures r.Failure? <==> expand(algStr).None?
    ensures r.Failure? ==> r.error == ParseErrorMessage
    ensures r.Success? ==> r.value.raw == algStr && Trimmed(r.value.normalized)
    ensures r.Success? ==> r.value.normalized == Trim(expand(algStr).value)
    ensures r.Success? ==> r.value.steps == SplitSteps(r.value.normalized)
    ensures r.Success? ==> RemoveSpace(r.value.normalized) == RemoveSpace(expand(algStr).value)
    ensures r.Success? ==> Concat(r.value.steps) == RemoveSpace(r.value.normalized)
    ensures r.Success? ==> forall i :: 0 <= i < |r.value.steps| ==>
                             r.value.steps[i] != "" && NoSpace(r.value.steps[i])
  {
    match expand(algStr)
    case None => Failure(ParseErrorMessage)
    case Some(expanded) =>
      var normalized := Trim(expanded);
      TrimKeepsNonSpace(expanded);
      Success(ParsedAlg(algStr, normalized, SplitSteps(normalized)))
  }

  /** The verdict over already-split steps, shared by `isIdentity` and `applyToCase`. */
  function Verdict(steps: seq<string>): (r: IdentityResult)
    ensures r.isIdentity <==> r.remainingMoves == 0
    ensures r.isIdentity <==> Reduce(steps) == []
    ensures r.remainingMoves <= |steps|
  {
    ReduceShrinks(steps);
    var simplifiedSteps := Simplify(steps);
    IdentityResult(|simplifiedSteps| == 0, Join(simplifiedSteps), |simplifiedSteps|)
  }

  /**
   * `isIdentity`: fails exactly when parsing fails; otherwise reports identity
   * exactly when nothing is left after simplification, counts what is left, and
   * lists it space-separated so that splitting `simplified` gives those steps back.
   */
  function IsIdentity(algStr: string, expand: string -> Option<string>): (r: Result<IdentityResult, string>)
    ensures r.Failure? <==> Parse(algStr, expand).Failure?
    ensures r.Success? ==>
              var steps := Parse(algStr, expand).value.steps;
              && (r.value.isIdentity <==> Reduce(steps) == [])
              && (r.value.isIdentity <==> r.value.simplified == "")
              && r.value.remainingMoves == |Simplify(steps)|
              && r.value.simplified == Join(Simplify(steps))
              && SplitSteps(r.value.simplified) == Simplify(steps)
              && |UnknownSteps(steps)| <= r.value.remainingMoves <= |steps|
  {
    match Parse(algStr, expand)
    case Failure(e) => Failure(e)
    case Success(parsed) =>
      VerdictFacts(parsed.steps);
      Success(Verdict(parsed.steps))
  }

  lemma VerdictFacts(steps: seq<string>)
    requires forall i :: 0 <= i < |steps| ==> steps[i] != "" && NoSpace(steps[i])
    ensures (Verdict(steps).isIdentity <==> Reduce(steps) == [])
    ensures (Verdict(steps).isIdentity <==> Verdict(steps).simplified == "")
    ensures Verdict(steps).simplified == Join(Simplify(steps))
    ensures SplitSteps(Verdict(steps).simplified) == Simplify(steps)
    ensures Verdict(steps).remainingMoves == |Simplify(steps)|
    ensures |UnknownSteps(steps)| <= Verdict(steps).remainingMoves <= |steps|
  {
    var out := Simplify(steps);
    ReduceShrinks(steps);
    SimplifyKeepsUnknownSteps(steps);
    UnknownStepsShorter(out);
    SimplifyTokensWellFormed(steps);
    JoinTrimmed(out);
    if out != [] {
      SplitJoin(out);
    }
  }

  lemma {:induction false} UnknownStepsShorter(steps: seq<string>)
    ensures |UnknownSteps(steps)| <= |steps|
    decreases |steps|
  {
    if steps != [] {
      UnknownStepsShorter(steps[..|steps| - 1]);
    }
  }

  /** The output of a simplification of non-empty, whitespace-free steps is again such steps. */
  lemma SimplifyTokensWellFormed(steps: seq<string>)
    requires forall i :: 0 <= i < |steps| ==> steps[i] != "" && NoSpace(steps[i])
    ensures forall i :: 0 <= i < |Simplify(steps)| ==> Simplify(steps)[i] != "" && NoSpace(Simplify(steps)[i])
  {
    ReduceCanonical(steps);
    ReduceBasesFromSteps(steps);
    var stack := Reduce(steps);
    forall i | 0 <= i < |stack|
      ensures RenderEntry(stack[i]) != "" && NoSpace(RenderEntry(stack[i]))
    {
      var b := stack[i].base;
      assert b != "" && NoSpace(b);
    }
  }

  /** Every base on the stack is either a move base or one of the steps, so it is non-empty and whitespace-free. */
  lemma {:induction false} ReduceBasesFromSteps(steps: seq<string>)
    requires forall i :: 0 <= i < |steps| ==> steps[i] != "" && NoSpace(steps[i])
    ensures forall i :: 0 <= i < |Reduce(steps)| ==>
              Reduce(steps)[i].base != "" && NoSpace(Reduce(steps)[i].base)
    decreases |steps|
  {
    if steps != [] {
      var prefix := steps[..|steps| - 1];
      var last := steps[|steps| - 1];
      ReduceBasesFromSteps(prefix);
      var before := Reduce(prefix);
      assert Reduce(steps) == Push(before, last);
      var e := match ParseMoveToken(last) case None => Entry(last, 0) case Some(move) => move;
      if IsBase(e.base) {
        BaseWellFormed(e.base);
      }
      PushBasesFrom(before, last, e);
    }
  }

  lemma BaseWellFormed(b: string)
    requires IsBase(b)
    ensures b != "" && NoSpace(b)
  {
  }

  /** The entries `Push` leaves on the stack come from the old stack, except possibly one with the base of `e`. */
  lemma PushBasesFrom(stack: seq<Entry>, step: string, e: Entry)
    requires e == match ParseMoveToken(step) case None => Entry(step, 0) case Some(move) => move
    ensures forall i :: 0 <= i < |Push(stack, step)| ==>
              Push(stack, step)[i].base == e.base || Push(stack, step)[i] in stack
  {
    var n := |stack|;
    match ParseMoveToken(step)
    case None =>
      assert forall i :: 0 <= i < n ==> (stack + [e])[i] == stack[i];
    case Some(move) =>
      if n > 0 && stack[n - 1].base == move.base {
        var rest := stack[..n - 1];
        var merged := MergePower(stack[n - 1].power, move.power);
        assert forall i :: 0 <= i < n - 1 ==> (rest + [Entry(move.base, merged)])[i] == stack[i];
      } else {
        assert forall i :: 0 <= i < n ==> (stack + [e])[i] == stack[i];
      }
  }

  /**
   * `applyToCase`: `combined` is the setup followed by the candidate, trimmed;
   * the verdict, `simplified` and `remainingMoves` are those `isIdentity` gives
   * for the combined text.
   */
  function ApplyToCase(algStr: string, caseState: CaseState, expand: string -> Option<string>)
    : (r: Result<ApplyResult, string>)
    ensures r.Failure? <==> IsIdentity(Trim(caseState.setupAlg + " " + algStr), expand).Failure?
    ensures r.Success? ==>
              && r.value.combined == Trim(caseState.setupAlg + " " + algStr)
              && var verdict := IsIdentity(r.value.combined, expand).value;
              && r.value.isIdentity == verdict.isIdentity
              && r.value.simplified == verdict.simplified
              && r.value.remainingMoves == verdict.remainingMoves
  {
    var combined := Trim(caseState.setupAlg + " " + algStr);
    match Parse(combined, expand)
    case Failure(e) => Failure(e)
    case Success(parsed) =>
      var v := Verdict(parsed.steps);
      Success(ApplyResult(combined, v.isIdentity, v.simplified, v.remainingMoves))
  }
}

=== FILE: alg_preference_store.dfy ===
/**
 * The primary-algorithm preference of each case: a map from case id to the
 * algorithm the user chose to drill. Reads trim the stored text and fall back
 * to a caller-supplied default when nothing usable is stored; writes ignore a
 * blank algorithm and otherwise store it trimmed. Persisting the map is not
 * modelled: an update returns the new map.
 */
module AlgPreferenceStore {
  import opened Text

  type AlgPreferenceMap = map<string, string>

  /** Every stored algorithm is trimmed and non-empty: what `SetPrimary` writes. */
  predicate WellStored(m: AlgPreferenceMap) {
    forall id :: id in m ==> Trimmed(m[id]) && m[id] != ""
  }

  /**
   * `getPrimaryFromMap`: the stored algorithm trimmed, or the fallback, verbatim,
   * when the case has no entry or its entry is blank.
   */
  function GetPrimaryFromMap(m: AlgPreferenceMap, caseId: string, fallback: string): (r: string)
    ensures caseId !in m ==> r == fallback
    ensures caseId in m && Trim(m[caseId]) == "" ==> r == fallback
    ensures caseId in m && Trim(m[caseId]) != "" ==>
      r == Trim(m[caseId]) && Trimmed(r) && RemoveSpace(r) == RemoveSpace(m[caseId])
  {
    if caseId !in m then fallback
    else
      var cleaned := Trim(m[caseId]);
      TrimKeepsNonSpace(m[caseId]);
      if cleaned == "" then fallback else cleaned
  }

  /** The result is the fallback or a trimmed, non-empty algorithm. */
  lemma PrimaryIsFallbackOrClean(m: AlgPreferenceMap, caseId: string, fallback: string)
    ensures var r := GetPrimaryFromMap(m, caseId, fallback);
      r == fallback || (r != "" && Trimmed(r))
  {
  }

  /** In a well-stored map the stored algorithm comes back unchanged. */
  lemma WellStoredReadsBack(m: AlgPreferenceMap, caseId: string, fallback: string)
    requires WellStored(m) && caseId in m
    ensures GetPrimaryFromMap(m, caseId, fallback) == m[caseId]
  {
    TrimmedIsFixedPoint(m[caseId]);
  }

  /**
   * The map update of `setPrimary`: a blank algorithm changes nothing,
   * otherwise `caseId` maps to the trimmed algorithm and every other entry stays.
   */
  function SetPrimary(m: AlgPreferenceMap, caseId: string, alg: string): (m': AlgPreferenceMap)
    ensures Trim(alg) == "" ==> m' == m
    ensures Trim(alg) != "" ==> caseId in m' && m'[caseId] == Trim(alg) && m'.Keys == m.Keys + {caseId}
    ensures forall id :: id != caseId ==> (id in m' <==> id in m) && (id in m ==> m'[id] == m[id])
  {
    var trimmed := Trim(alg);
    if trimmed == "" then m else m[caseId := trimmed]
  }

  /** Setting a primary algorithm and reading it back gives the trimmed algorithm; a blank one leaves the old answer. */
  lemma SetThenGet(m: AlgPreferenceMap, caseId: string, alg: string, fallback: string)
    ensures Trim(alg) != "" ==> GetPrimaryFromMap(SetPrimary(m, caseId, alg), caseId, fallback) == Trim(alg)
    ensures Trim(alg) == "" ==>
      GetPrimaryFromMap(SetPrimary(m, caseId, alg), caseId, fallback) == GetPrimaryFromMap(m, caseId, fallback)
  {
    TrimIdempotent(alg);
  }

  /** Setting one case's algorithm does not change what any other case reads. */
  lemma SetKeepsOthers(m: AlgPreferenceMap, caseId: string, alg: string, other: string, fallback: string)
    requires other != caseId
    ensures GetPrimaryFromMap(SetPrimary(m, caseId, alg), other, fallback) == GetPrimaryFromMap(m, other, fallback)
  {
  }

  /** Writes keep every stored algorithm trimmed and non-empty. */
  lemma SetPrimaryWellStored(m: AlgPreferenceMap, caseId: string, alg: string)
    requires WellStored(m)
    ensures WellStored(SetPrimary(m, caseId, alg))
  {
  }

  /** Writing the same algorithm twice is the same as writing it once. */
  lemma SetPrimaryIdempotent(m: AlgPreferenceMap, caseId: string, alg: string)
    ensures SetPrimary(SetPrimary(m, caseId, alg), caseId, alg) == SetPrimary(m, caseId, alg)
  {
  }
}

=== FILE: case_library.dfy ===
/**
 * The shape of a PLL case as the trainer's other modules see it. The case table
 * itself is static data (and its setup algorithms come from the move library's
 * inversion), so only the record type is modelled.
 */
module CaseLibrary {

  /** Edge-only, corner-only, or mixed permutation of the last layer. */
  datatype Group = EPLL | CPLL | Mixed

  /** A case as used for filtering, drawing and bookkeeping: its id, group and setup algorithm. */
  datatype PllCase = PllCase(id: string, name: string, group: Group, setupAlg: string)
}

=== FILE: practice_engine.dfy ===
/**
 * Choosing what to practise: the cases of the enabled groups that are not
 * excluded, and a draw among them that is either uniform ("balanced") or
 * weighted towards the weaker cases. The random number in [0, 1) that the
 * trainer takes from `Math.random` is a parameter here.
 */
module PracticeEngine {
  import opened Wrappers
  import opened CaseLibrary
  import opened Seqs
  import opened ProficiencyStore

  datatype PracticeMode = Balanced | Weighted

  datatype PracticeConfig = PracticeConfig(enabledGroups: seq<Group>, excludedCaseIds: seq<string>, mode: PracticeMode)

  predicate Practised(config: PracticeConfig, c: PllCase) {
    c.group in config.enabledGroups && c.id !in config.excludedCaseIds
  }

  /** `filterCasesForPractice`: the cases of an enabled group that are not excluded, in their original order. */
  function FilterCasesForPractice(cases: seq<PllCase>, config: PracticeConfig): (r: seq<PllCase>)
    ensures |r| <= |cases|
    ensures forall c :: c in r <==> c in cases && c.group in config.enabledGroups && c.id !in config.excludedCaseIds
  {
    Filter(cases, c => Practised(config, c))
  }

  /** Filtering two lists of cases one after the other gives the filtered lists one after the other. */
  lemma FilterCasesAppend(a: seq<PllCase>, b: seq<PllCase>, config: PracticeConfig)
    ensures FilterCasesForPractice(a + b, config) == FilterCasesForPractice(a, config) + FilterCasesForPractice(b, config)
  {
    FilterAppend(a, b, c => Practised(config, c));
  }

  /** With every group enabled and nothing excluded, every case is practised. */
  lemma FilterCasesKeepsAll(cases: seq<PllCase>, config: PracticeConfig)
    requires forall g: Group :: g in config.enabledGroups
    requires config.excludedCaseIds == []
    ensures FilterCasesForPractice(cases, config) == cases
  {
    FilterKeepsAll(cases, c => Practised(config, c));
  }

  // ---------------------------------------------------------------------------
  // Weighted drawing

  /** The drawing weight of each candidate, from its proficiency level. */
  function Weights(candidates: seq<PllCase>, proficiency: ProficiencyMap): (w: seq<int>)
    ensures |w| == |candidates|
    ensures forall i :: 0 <= i < |w| ==> 1 <= w[i] <= 3
    ensures forall i :: 0 <= i < |w| ==> w[i] == 4 - GetLevel(proficiency, candidates[i].id)
  {
    seq(|candidates|, i requires 0 <= i < |candidates| => LevelWeight(GetLevel(proficiency, candidates[i].id)))
  }

  /** The running total of the first `i` weights. */
  function PrefixSum(w: seq<int>, i: nat): (total: int)
    requires i <= |w|
    ensures (forall k :: 0 <= k < i ==> 1 <= w[k] <= 3) ==> i <= total <= 3 * i
  {
    if i == 0 then 0 else PrefixSum(w, i - 1) + w[i - 1]
  }

  predicate Positive(w: seq<int>) {
    forall i :: 0 <= i < |w| ==> w[i] >= 1
  }

  /** With weights of at least one, the running total grows by at least one per candidate. */
  lemma {:induction false} PrefixSumGrows(w: seq<int>, i: nat, j: nat)
    requires Positive(w) && i <= j <= |w|
    ensures PrefixSum(w, j) - PrefixSum(w, i) >= j - i
    decreases j
  {
    if i < j {
      PrefixSumGrows(w, i, j - 1);
    }
  }

  /** Every weight is at least one, so the total is at least the number of candidates. */
  lemma WeightsTotal(candidates: seq<PllCase>, proficiency: ProficiencyMap)
    ensures var w := Weights(candidates, proficiency);
      |candidates| <= PrefixSum(w, |w|) <= 3 * |candidates|
  {
    var w := Weights(candidates, proficiency);
  }

  /**
   * The first index from `i` on whose running total reaches `r`, or the last
   * index when none does.
   */
  function FirstReaching(w: seq<int>, r: real, i: nat): (k: nat)
    requires w != [] && i <= |w|
    requires forall j :: 0 < j <= i ==> r > PrefixSum(w, j) as real
    ensures k < |w|
    ensures (r <= PrefixSum(w, k + 1) as real && forall j :: 0 < j <= k ==> r > PrefixSum(w, j) as real)
         || (k == |w| - 1 && forall j :: 0 < j <= |w| ==> r > PrefixSum(w, j) as real)
    decreases |w| - i
  {
    if i == |w| then |w| - 1
    else if r <= PrefixSum(w, i + 1) as real then i
    else FirstReaching(w, r, i + 1)
  }

  /** The candidate a weighted draw of `r` lands on: the first whose running weight reaches `r`, else the last. */
  function WeightedIndex(w: seq<int>, r: real): (k: nat)
    requires w != []
    ensures k < |w|
  {
    FirstReaching(w, r, 0)
  }

  /**
   * With positive weights and `0 <= r < total`, candidate `i` is drawn exactly
   * when `r` falls in its own slice of the running total, a slice as wide as
   * its weight.
   */
  lemma WeightedIndexSlice(w: seq<int>, r: real, i: nat)
    requires w != [] && Positive(w) && 0.0 <= r < PrefixSum(w, |w|) as real && i < |w|
    ensures WeightedIndex(w, r) == i <==>
      (i == 0 || PrefixSum(w, i) as real < r) && r <= PrefixSum(w, i + 1) as real
  {
    var k := WeightedIndex(w, r);
    assert !(forall j :: 0 < j <= |w| ==> r > PrefixSum(w, j) as real) by {
      assert !(r > PrefixSum(w, |w|) as real);
    }
    if k < i {
      PrefixSumGrows(w, k + 1, i);
    } else if k > i {
      assert r > PrefixSum(w, i + 1) as real;
    } else if i > 0 {
      assert r > PrefixSum(w, i) as real;
    }
  }

  /** The accumulating loop of the weighted branch: walks the candidates until the running weight reaches `r`. */
  method PickWeighted(candidates: seq<PllCase>, weights: seq<int>, r: real) returns (c: PllCase)
    requires candidates != [] && |weights| == |candidates|
    ensures c == candidates[WeightedIndex(weights, r)]
  {
    var acc := 0;
    var i := 0;
    while i < |candidates|
      invariant 0 <= i <= |candidates|
      invariant acc == PrefixSum(weights, i)
      invariant forall j :: 0 < j <= i ==> r > PrefixSum(weights, j) as real
      invariant FirstReaching(weights, r, i) == WeightedIndex(weights, r)
    {
      acc := acc + weights[i];
      if r <= acc as real {
        return candidates[i];
      }
      i := i + 1;
    }
    return candidates[|candidates| - 1];
  }

  /** The index a balanced draw of `draw` in [0, 1) lands on: `floor(draw * n)`. */
  function BalancedIndex(draw: real, n: nat): (k: nat)
    requires 0.0 <= draw < 1.0 && n > 0
    ensures k < n
    ensures k as real <= Scale(draw, n) < (k + 1) as real
  {
    Scale(draw, n).Floor
  }

  /** `Math.random() * total`: the draw stretched over the total weight; a draw in [0, 1) lands in [0, total). */
  function Scale(draw: real, total: int): (r: real)
    ensures 0.0 <= draw < 1.0 && total > 0 ==> 0.0 <= r < total as real
  {
    var t := total as real;
    assert 0.0 <= draw < 1.0 && total > 0 ==> 0.0 <= draw * t && 0.0 < (1.0 - draw) * t == t - draw * t;
    draw * t
  }

  /**
   * `chooseRandomCase`: nothing from no candidates; otherwise a uniform pick
   * in balanced mode, or the weighted pick for a draw scaled by the total weight.
   */
  method ChooseRandomCase(candidates: seq<PllCase>, proficiency: ProficiencyMap, mode: PracticeMode, draw: real)
    returns (r: Option<PllCase>)
    requires 0.0 <= draw < 1.0
    ensures r.None? <==> candidates == []
    ensures r.Some? ==> r.value in candidates
    ensures candidates != [] && mode == Balanced ==>
      r == Some(candidates[BalancedIndex(draw, |candidates|)])
    ensures candidates != [] && mode == Weighted ==>
      var w := Weights(candidates, proficiency);
      r == Some(candidates[WeightedIndex(w, Scale(draw, PrefixSum(w, |w|)))])
  {
    if |candidates| == 0 {
      return None;
    }
    if mode == Balanced {
      var idx := Scale(draw, |candidates|).Floor;
      assert idx == BalancedIndex(draw, |candidates|);
      return Some(candidates[idx]);
    }
    var weights := Weights(candidates, proficiency);
    var total := PrefixSum(weights, |weights|);
    var c := PickWeighted(candidates, weights, Scale(draw, total));
    return Some(c);
  }

  /** A weighted draw in [0, 1) always lands on a candidate whose running weight reaches it, never on the fallback alone. */
  lemma WeightedDrawReaches(candidates: seq<PllCase>, proficiency: ProficiencyMap, draw: real)
    requires candidates != [] && 0.0 <= draw < 1.0
    ensures var w := Weights(candidates, proficiency);
      var r := Scale(draw, PrefixSum(w, |w|));
      var k := WeightedIndex(w, r);
      r <= PrefixSum(w, k + 1) as real && (k == 0 || PrefixSum(w, k) as real < r)
  {
    var w := Weights(candidates, proficiency);
    var total := PrefixSum(w, |w|);
    WeightsTotal(candidates, proficiency);
    var r := Scale(draw, total);
    var k := WeightedIndex(w, r);
    WeightedIndexSlice(w, r, k);
  }
}

=== FILE: proficiency_store.dfy ===
/**
 * Per-case proficiency: three levels (1 unfamiliar, 2 fair, 3 fluent), a map
 * from case id to level in which an absent case counts as unfamiliar, the
 * label and drawing weight of each level, and the per-level counts of a case
 * list. Updates build a new map; persisting it is not modelled.
 */
module ProficiencyStore {
  import opened CaseLibrary

  type Level = l: int | 1 <= l <= 3 witness 1

  type ProficiencyMap = map<string, Level>

  datatype Summary = Summary(level1: nat, level2: nat, level3: nat)

  /** A case nobody has rated yet is unfamiliar, the level drawn most often. */
  function GetDefaultLevel(): (l: Level)
    ensures forall other: Level :: LevelWeight(other) <= LevelWeight(l)
    ensures LevelLabel(l) == "生疏"
  {
    1
  }

  /** The stored level of a case, or the default level when the case has none. */
  function GetLevel(m: ProficiencyMap, caseId: string): (l: Level)
    ensures caseId in m ==> l == m[caseId]
    ensures caseId !in m ==> l == GetDefaultLevel()
  {
    if caseId in m then m[caseId] else GetDefaultLevel()
  }

  /** The display name of a level. */
  function LevelLabel(level: Level): (name: string)
    ensures level == 1 <==> name == "生疏"
    ensures level == 2 <==> name == "一般"
    ensures level == 3 <==> name == "熟练"
  {
    if level == 1 then "生疏"
    else if level == 2 then "一般"
    else "熟练"
  }

  /** Different levels have different labels. */
  lemma LevelLabelInjective(a: Level, b: Level)
    requires LevelLabel(a) == LevelLabel(b)
    ensures a == b
  {
    assert "生疏" != "一般" && "生疏" != "熟练" && "一般" != "熟练" by {
      assert "生疏"[0] != "一般"[0] && "生疏"[0] != "熟练"[0] && "一般"[0] != "熟练"[0];
    }
  }

  /** How strongly a level pulls a case in weighted drawing: weaker cases weigh more. */
  function LevelWeight(level: Level): (w: int)
    ensures 1 <= w <= 3
    ensures w + level == 4
  {
    if level == 1 then 3
    else if level == 2 then 2
    else 1
  }

  /** The weight strictly decreases as the level rises. */
  lemma LevelWeightDecreasing(a: Level, b: Level)
    requires a < b
    ensures LevelWeight(a) > LevelWeight(b)
  {
  }

  /** The number of cases whose level is `level`. */
  function CountLevel(cases: seq<PllCase>, m: ProficiencyMap, level: Level): (n: nat)
    ensures n <= |cases|
  {
    if cases == [] then 0
    else
      var n := |cases| - 1;
      CountLevel(cases[..n], m, level) + (if GetLevel(m, cases[n].id) == level then 1 else 0)
  }

  /** `summarizeProficiency`: counts the cases at each level in one pass. */
  method SummarizeProficiency(cases: seq<PllCase>, m: ProficiencyMap) returns (result: Summary)
    ensures result.level1 == CountLevel(cases, m, 1)
    ensures result.level2 == CountLevel(cases, m, 2)
    ensures result.level3 == CountLevel(cases, m, 3)
    ensures result.level1 + result.level2 + result.level3 == |cases|
  {
    result := Summary(0, 0, 0);
    for i := 0 to |cases|
      invariant result.level1 == CountLevel(cases[..i], m, 1)
      invariant result.level2 == CountLevel(cases[..i], m, 2)
      invariant result.level3 == CountLevel(cases[..i], m, 3)
      invariant result.level1 + result.level2 + result.level3 == i
    {
      assert cases[..i + 1][..i] == cases[..i];
      var level := GetLevel(m, cases[i].id);
      if level == 1 {
        result := result.(level1 := result.level1 + 1);
      } else if level == 2 {
        result := result.(level2 := result.level2 + 1);
      } else {
        result := result.(level3 := result.level3 + 1);
      }
    }
    assert cases[..|cases|] == cases;
  }

  /** Cases missing from the map are counted as unfamiliar: against an empty map, every case is. */
  lemma {:induction false} UnratedCountAsLevel1(cases: seq<PllCase>)
    ensures CountLevel(cases, map[], 1) == |cases|
    ensures CountLevel(cases, map[], 2) == 0 && CountLevel(cases, map[], 3) == 0
  {
    if cases != [] {
      UnratedCountAsLevel1(cases[..|cases| - 1]);
    }
  }

  /** `setLevelForCase`: the new map rates `caseId` at `level` and keeps every other entry. */
  function SetLevelForCase(m: ProficiencyMap, caseId: string, level: Level): (m': ProficiencyMap)
    ensures GetLevel(m', caseId) == level
    ensures forall id :: id != caseId ==> GetLevel(m', id) == GetLevel(m, id)
    ensures m'.Keys == m.Keys + {caseId}
  {
    m[caseId := level]
  }

  /** `resetAll`: forgets every rating, so every case is back at the default level. */
  function ResetAll(): (m: ProficiencyMap)
    ensures m == map[]
    ensures forall id :: GetLevel(m, id) == GetDefaultLevel()
    ensures forall cases :: CountLevel(cases, m, 1) == |cases|
  {
    var empty: ProficiencyMap := map[];
    assert forall cases :: CountLevel(cases, empty, 1) == |cases| by {
      forall cases {
        UnratedCountAsLevel1(cases);
      }
    }
    empty
  }
}

=== FILE: seqs.dfy ===
/** `Array.prototype.filter` over sequences, and the facts about it the trainer's filters rely on. */
module Seqs {

  /** The elements of `s` that satisfy `p`, in their original order. */
  function Filter<T(!new)>(s: seq<T>, p: T -> bool): (r: seq<T>)
    ensures |r| <= |s|
    ensures forall x :: x in r <==> x in s && p(x)
  {
    if s == [] then []
    else if p(s[0]) then [s[0]] + Filter(s[1..], p)
    else Filter(s[1..], p)
  }

  /** Filtering distributes over concatenation: the kept elements stay in order. */
  lemma {:induction false} FilterAppend<T(!new)>(a: seq<T>, b: seq<T>, p: T -> bool)
    ensures Filter(a + b, p) == Filter(a, p) + Filter(b, p)
  {
    if a != [] {
      assert (a + b)[0] == a[0];
      assert (a + b)[1..] == a[1..] + b;
      FilterAppend(a[1..], b, p);
    } else {
      assert a + b == b;
    }
  }

  /** A filter that every element passes keeps the whole sequence. */
  lemma {:induction false} FilterKeepsAll<T(!new)>(s: seq<T>, p: T -> bool)
    requires forall i :: 0 <= i < |s| ==> p(s[i])
    ensures Filter(s, p) == s
  {
    if s != [] {
      FilterKeepsAll(s[1..], p);
    }
  }
}

=== FILE: text.dfy ===
/**
 * The JavaScript string primitives the trainer leans on: `String.prototype.trim`,
 * `split(/\s+/)` and `join(" ")`, over the explicit set of code points that
 * ECMAScript counts as WhiteSpace or LineTerminator (what `trim` strips and
 * what `\s` matches).
 */
module Text {

  /** ECMAScript WhiteSpace (TAB, VT, FF, ZWNBSP and the Zs category) plus LineTerminator. */
  const SpaceChars: set<char> := {
    '\t', '\n', '\U{000B}', '\U{000C}', '\r', ' ', '\U{00A0}', '\U{1680}',
    '\U{2000}', '\U{2001}', '\U{2002}', '\U{2003}', '\U{2004}', '\U{2005}',
    '\U{2006}', '\U{2007}', '\U{2008}', '\U{2009}', '\U{200A}',
    '\U{2028}', '\U{2029}', '\U{202F}', '\U{205F}', '\U{3000}', '\U{FEFF}'
  }

  predicate IsSpace(c: char) {
    c in SpaceChars
  }

  predicate AllSpace(s: string) {
    forall i :: 0 <= i < |s| ==> IsSpace(s[i])
  }

  predicate NoSpace(s: string) {
    forall i :: 0 <= i < |s| ==> !IsSpace(s[i])
  }

  /** Neither starts nor ends with whitespace: what `trim` returns. */
  predicate Trimmed(s: string) {
    s == [] || (!IsSpace(s[0]) && !IsSpace(s[|s| - 1]))
  }

  /** Length of the longest all-whitespace prefix. */
  function LeadingSpace(s: string): (n: nat)
    ensures n <= |s|
    ensures forall i :: 0 <= i < n ==> IsSpace(s[i])
    ensures n < |s| ==> !IsSpace(s[n])
  {
    if s == [] || !IsSpace(s[0]) then 0 else 1 + LeadingSpace(s[1..])
  }

  /** Length of the longest whitespace-free prefix. */
  function LeadingNonSpace(s: string): (n: nat)
    ensures n <= |s|
    ensures forall i :: 0 <= i < n ==> !IsSpace(s[i])
    ensures n < |s| ==> IsSpace(s[n])
  {
    if s == [] || IsSpace(s[0]) then 0 else 1 + LeadingNonSpace(s[1..])
  }

  /** Length of the longest all-whitespace suffix. */
  function TrailingSpace(s: string): (n: nat)
    ensures n <= |s|
    ensures forall i :: |s| - n <= i < |s| ==> IsSpace(s[i])
    ensures n < |s| ==> !IsSpace(s[|s| - n - 1])
  {
    if s == [] || !IsSpace(s[|s| - 1]) then 0 else 1 + TrailingSpace(s[..|s| - 1])
  }

  /** `s.trim()`: `s` without its leading and trailing whitespace. */
  function Trim(s: string): (r: string)
    ensures |r| <= |s|
    ensures Trimmed(r)
  {
    var rest := s[LeadingSpace(s)..];
    rest[..|rest| - TrailingSpace(rest)]
  }

  /** `s` is its trimmed form with only whitespace before and after it. */
  lemma TrimSurround(s: string) returns (pre: string, post: string)
    ensures s == pre + Trim(s) + post
    ensures AllSpace(pre) && AllSpace(post)
  {
    var k := LeadingSpace(s);
    var rest := s[k..];
    var j := |rest| - TrailingSpace(rest);
    pre, post := s[..k], rest[j..];
    assert s == pre + rest[..j] + post;
  }

  /** The trimmed string is the slice of `s` with only whitespace before and after it. */
  lemma TrimIsSlice(s: string)
    ensures var r := Trim(s);
      exists k :: 0 <= k <= |s| - |r| && r == s[k..k + |r|] && AllSpace(s[..k]) && AllSpace(s[k + |r|..])
  {
    var r := Trim(s);
    var pre, post := TrimSurround(s);
    var k := |pre|;
    assert s[..k] == pre && s[k..k + |r|] == r && s[k + |r|..] == post;
  }

  lemma TrimmedIsFixedPoint(s: string)
    requires Trimmed(s)
    ensures Trim(s) == s
  {
    if s != [] {
      assert LeadingSpace(s) == 0;
      assert TrailingSpace(s) == 0;
    }
  }

  /** `trim` is idempotent. */
  lemma TrimIdempotent(s: string)
    ensures Trim(Trim(s)) == Trim(s)
  {
    TrimmedIsFixedPoint(Trim(s));
  }

  /** Trimming removes whitespace only. */
  lemma TrimKeepsNonSpace(s: string)
    ensures RemoveSpace(Trim(s)) == RemoveSpace(s)
  {
    var pre, post := TrimSurround(s);
    RemoveSpaceAround(pre, Trim(s), post);
  }

  lemma RemoveSpaceAround(pre: string, mid: string, post: string)
    requires AllSpace(pre) && AllSpace(post)
    ensures RemoveSpace(pre + mid + post) == RemoveSpace(mid)
  {
    RemoveSpaceAppend(pre + mid, post);
    RemoveSpaceAppend(pre, mid);
    RemoveSpaceOfSpace(pre);
    RemoveSpaceOfSpace(post);
  }

  /**
   * `s.split(/\s+/)`: the pieces between maximal whitespace runs, with an empty
   * piece at either end where `s` starts or ends with whitespace, and `[""]`
   * for the empty string.
   */
  function Split(s: string): (r: seq<string>)
    ensures |r| >= 1
    ensures forall i :: 0 <= i < |r| ==> NoSpace(r[i])
    decreases |s|
  {
    var n := LeadingNonSpace(s);
    if n == |s| then [s]
    else
      var gap := s[n..];
      [s[..n]] + Split(gap[LeadingSpace(gap)..])
  }

  /** `tokens.join(" ")`: the first token, then a single space before each further one. */
  function Join(tokens: seq<string>): (r: string)
    ensures |tokens| == 0 ==> r == ""
    ensures |tokens| > 0 ==> |tokens[0]| <= |r| && r[..|tokens[0]|] == tokens[0]
    ensures |tokens| > 1 ==> |tokens[0]| < |r| && r[|tokens[0]|] == ' '
    ensures |tokens| > 1 ==> r[|tokens[0]| + 1..] == Join(tokens[1..])
  {
    if |tokens| == 0 then ""
    else if |tokens| == 1 then tokens[0]
    else tokens[0] + " " + Join(tokens[1..])
  }

  function Concat(tokens: seq<string>): string {
    if tokens == [] then "" else tokens[0] + Concat(tokens[1..])
  }

  /** The join adds exactly one separator character between neighbouring tokens. */
  lemma {:induction false} JoinLength(tokens: seq<string>)
    requires |tokens| > 0
    ensures |Join(tokens)| == |Concat(tokens)| + |tokens| - 1
  {
    if |tokens| > 1 {
      JoinLength(tokens[1..]);
    }
  }

  /** The characters of `s` that are not whitespace, in order. */
  function RemoveSpace(s: string): (r: string)
    ensures NoSpace(r)
  {
    if s == [] then ""
    else if IsSpace(s[0]) then RemoveSpace(s[1..])
    else [s[0]] + RemoveSpace(s[1..])
  }

  lemma RemoveSpaceAppend(a: string, b: string)
    ensures RemoveSpace(a + b) == RemoveSpace(a) + RemoveSpace(b)
  {
    if a == [] {
      assert a + b == b;
    } else {
      assert (a + b)[0] == a[0];
      assert (a + b)[1..] == a[1..] + b;
      RemoveSpaceAppend(a[1..], b);
    }
  }

  lemma {:induction false} RemoveSpaceOfSpace(s: string)
    requires AllSpace(s)
    ensures RemoveSpace(s) == ""
  {
    if s != [] {
      RemoveSpaceOfSpace(s[1..]);
    }
  }

  lemma {:induction false} RemoveSpaceOfNoSpace(s: string)
    requires NoSpace(s)
    ensures RemoveSpace(s) == s
  {
    if s != [] {
      RemoveSpaceOfNoSpace(s[1..]);
    }
  }

  lemma ConcatCons(t: string, tokens: seq<string>)
    ensures Concat([t] + tokens) == t + Concat(tokens)
  {
    assert ([t] + tokens)[1..] == tokens;
  }

  /** Splitting loses exactly the whitespace: the pieces, glued back, are `s` without it. */
  lemma {:induction false} SplitKeepsNonSpace(s: string)
    ensures Concat(Split(s)) == RemoveSpace(s)
    decreases |s|
  {
    if LeadingNonSpace(s) == |s| {
      RemoveSpaceOfNoSpace(s);
    } else {
      var word, spaces, tail := SplitStep(s);
      SplitKeepsNonSpace(tail);
      calc {
        Concat(Split(s));
        Concat([word] + Split(tail));
        { ConcatCons(word, Split(tail)); }
        word + Concat(Split(tail));
        word + RemoveSpace(tail);
        { RemoveSpaceOfWordGap(word, spaces, tail); }
        RemoveSpace(word + spaces + tail);
      }
    }
  }

  /** Where `s` holds whitespace, `split` cuts off its first word and the whitespace run after it. */
  lemma SplitStep(s: string) returns (word: string, spaces: string, tail: string)
    requires LeadingNonSpace(s) < |s|
    ensures s == word + spaces + tail && |tail| < |s|
    ensures word == s[..LeadingNonSpace(s)] && |spaces| == LeadingSpace(s[|word|..])
    ensures NoSpace(word) && AllSpace(spaces)
    ensures Split(s) == [word] + Split(tail)
  {
    var n := LeadingNonSpace(s);
    var gap := s[n..];
    var m := LeadingSpace(gap);
    word, spaces, tail := s[..n], gap[..m], gap[m..];
    assert s == word + spaces + tail;
  }

  lemma RemoveSpaceOfWordGap(word: string, spaces: string, tail: string)
    requires NoSpace(word) && AllSpace(spaces)
    ensures RemoveSpace(word + spaces + tail) == word + RemoveSpace(tail)
  {
    calc {
      RemoveSpace(word + spaces + tail);
      { RemoveSpaceAppend(word + spaces, tail); }
      RemoveSpace(word + spaces) + RemoveSpace(tail);
      { RemoveSpaceAppend(word, spaces); }
      RemoveSpace(word) + RemoveSpace(spaces) + RemoveSpace(tail);
      { RemoveSpaceOfNoSpace(word); RemoveSpaceOfSpace(spaces); }
      word + "" + RemoveSpace(tail);
    }
    assert word + "" == word;
  }

  /** A non-empty trimmed string splits into non-empty pieces only. */
  lemma {:induction false} SplitTrimmedNonEmpty(s: string)
    requires s != [] && Trimmed(s)
    ensures forall i :: 0 <= i < |Split(s)| ==> Split(s)[i] != ""
    decreases |s|
  {
    var n := LeadingNonSpace(s);
    if n < |s| {
      var gap := s[n..];
      var m := LeadingSpace(gap);
      assert gap[|gap| - 1] == s[|s| - 1];
      SplitTrimmedNonEmpty(gap[m..]);
    }
  }

  /** Joining whitespace-free, non-empty tokens with single spaces and splitting again gives them back. */
  lemma {:induction false} SplitJoin(tokens: seq<string>)
    requires |tokens| >= 1
    requires forall i :: 0 <= i < |tokens| ==> tokens[i] != "" && NoSpace(tokens[i])
    ensures Split(Join(tokens)) == tokens
  {
    if |tokens| == 1 {
      assert LeadingNonSpace(tokens[0]) == |tokens[0]|;
    } else {
      var rest := Join(tokens[1..]);
      JoinStartsWithToken(tokens[1..]);
      SplitAtSpace(tokens[0], rest);
      SplitJoin(tokens[1..]);
      assert tokens == [tokens[0]] + tokens[1..];
    }
  }

  /**
   * `split` cuts at every whitespace run, however long and whichever whitespace
   * it holds: a word, a run of whitespace, and a rest that does not start with
   * whitespace split into the word followed by the pieces of the rest.
   */
  lemma SplitAtGap(t: string, gap: string, rest: string)
    requires NoSpace(t) && gap != [] && AllSpace(gap)
    requires rest == [] || !IsSpace(rest[0])
    ensures Split(t + gap + rest) == [t] + Split(rest)
  {
    var s := t + gap + rest;
    assert s == t + (gap + rest);
    LeadingNonSpaceOfPrefix(t, gap + rest);
    var word, spaces, tail := SplitStep(s);
    assert s[|t|..] == gap + rest;
    LeadingSpaceOfGap(gap, rest);
    SameCut(t, gap, rest, word, spaces, tail);
  }

  /** A word, one space and a text starting with a non-space split at that space. */
  lemma SplitAtSpace(t: string, rest: string)
    requires NoSpace(t) && rest != [] && !IsSpace(rest[0])
    ensures Split(t + " " + rest) == [t] + Split(rest)
  {
    assert AllSpace(" ");
    SplitAtGap(t, " ", rest);
  }

  /** A whitespace-free string is a single piece. */
  lemma SplitWord(t: string)
    requires NoSpace(t)
    ensures Split(t) == [t]
  {
  }

  /** `"R \t U".split(/\s+/)` is `["R", "U"]`: a mixed whitespace run separates two words. */
  lemma SplitTwoWords()
    ensures Split("R \t U") == ["R", "U"]
  {
    SampleParts();
    SplitAtGap("R", " \t ", "U");
    SplitWord("U");
  }

  lemma SampleParts()
    ensures NoSpace("R") && NoSpace("U") && AllSpace(" \t ") && !IsSpace("U"[0])
    ensures "R" + " \t " + "U" == "R \t U"
  {
  }

  lemma LeadingSpaceOfGap(gap: string, rest: string)
    requires AllSpace(gap) && (rest == [] || !IsSpace(rest[0]))
    ensures LeadingSpace(gap + rest) == |gap|
  {
    var s := gap + rest;
    assert |gap| < |s| ==> s[|gap|] == rest[0];
  }

  /** Two three-way cuts of one string with the same first two lengths are the same cut. */
  lemma SameCut(a: string, b: string, c: string, x: string, y: string, z: string)
    requires a + b + c == x + y + z && |a| == |x| && |b| == |y|
    ensures a == x && b == y && c == z
  {
    var s := a + b + c;
    assert a == s[..|a|] == x;
    assert b == s[|a|..|a| + |b|] == y;
    assert c == s[|a| + |b|..] == z;
  }

  lemma LeadingNonSpaceOfPrefix(t: string, u: string)
    requires NoSpace(t)
    requires u != [] && IsSpace(u[0])
    ensures LeadingNonSpace(t + u) == |t|
  {
    var s := t + u;
    assert s[|t|] == u[0];
  }

  lemma JoinStartsWithToken(tokens: seq<string>)
    requires |tokens| >= 1 && tokens[0] != []
    ensures Join(tokens) != [] && Join(tokens)[0] == tokens[0][0]
  {
  }

  /** Joining whitespace-free, non-empty tokens gives a trimmed string. */
  lemma {:induction false} JoinTrimmed(tokens: seq<string>)
    requires forall i :: 0 <= i < |tokens| ==> tokens[i] != "" && NoSpace(tokens[i])
    ensures Trimmed(Join(tokens))
    ensures tokens != [] ==> Join(tokens) != ""
  {
    if |tokens| > 1 {
      JoinTrimmed(tokens[1..]);
    }
  }
}

=== FILE: timing_engine.dfy ===
/**
 * Solve-time statistics: penalties, the plain mean, median and best of the
 * counted times, the trimmed average of the last N solves (ao5, ao12), and the
 * record filter of the history view. Times are milliseconds, modelled as reals.
 */
module TimingEngine {
  import opened Wrappers
  import opened CaseLibrary
  import opened Seqs

  datatype Penalty = Ok | PlusTwo | Dnf

  datatype SolveRecord = SolveRecord(
    id: string, caseId: string, group: Group, timeMs: real, penalty: Penalty, timestamp: int)

  datatype TimingStats = TimingStats(
    average: Option<real>, median: Option<real>, ao5: Option<real>, ao12: Option<real>, pb: Option<real>)

  /** The optional filters of the history view; an absent option does not filter. */
  datatype FilterOptions = FilterOptions(caseId: Option<string>, group: Option<Group>)

  /** The time a solve counts for: none for a DNF, two seconds more for a +2. */
  function ApplyPenalty(timeMs: real, penalty: Penalty): (r: Option<real>)
    ensures r.None? <==> penalty == Dnf
    ensures r.Some? ==> timeMs <= r.value <= timeMs + 2000.0
    ensures r.Some? ==> (r.value == timeMs <==> penalty == Ok)
    ensures penalty == PlusTwo ==> r == Some(timeMs + 2000.0)
  {
    match penalty
    case Dnf => None
    case PlusTwo => Some(timeMs + 2000.0)
    case Ok => Some(timeMs)
  }

  // ---------------------------------------------------------------------------
  // Counted times

  /** The penalised times of the records that are not DNF, in record order. */
  function PenalisedTimes(records: seq<SolveRecord>): (r: seq<real>)
    ensures |r| <= |records|
    ensures forall t :: t in r ==> exists rec :: rec in records && ApplyPenalty(rec.timeMs, rec.penalty) == Some(t)
  {
    if |records| == 0 then []
    else
      var last := records[|records| - 1];
      var t := ApplyPenalty(last.timeMs, last.penalty);
      PenalisedTimes(records[..|records| - 1]) + (if t.Some? then [t.value] else [])
  }

  function CountDnf(records: seq<SolveRecord>): nat {
    if |records| == 0 then 0
    else CountDnf(records[..|records| - 1]) + (if records[|records| - 1].penalty == Dnf then 1 else 0)
  }

  /** `numericTimes`: walks the records once, pushing each counted time. */
  method NumericTimes(records: seq<SolveRecord>) returns (arr: seq<real>)
    ensures arr == PenalisedTimes(records)
    ensures |arr| + CountDnf(records) == |records|
  {
    arr := [];
    for i := 0 to |records|
      invariant arr == PenalisedTimes(records[..i])
    {
      assert records[..i + 1][..i] == records[..i];
      var t := ApplyPenalty(records[i].timeMs, records[i].penalty);
      if t.Some? {
        arr := arr + [t.value];
      }
    }
    assert records[..|records|] == records;
    PenalisedTimesCount(records);
  }

  /** Every record gives one counted time, except the DNFs, which give none. */
  lemma {:induction false} PenalisedTimesCount(records: seq<SolveRecord>)
    ensures |PenalisedTimes(records)| + CountDnf(records) == |records|
  {
    if |records| > 0 {
      PenalisedTimesCount(records[..|records| - 1]);
    }
  }

  /** The counted times of two runs of records are those of the first followed by those of the second. */
  lemma {:induction false} PenalisedTimesAppend(a: seq<SolveRecord>, b: seq<SolveRecord>)
    ensures PenalisedTimes(a + b) == PenalisedTimes(a) + PenalisedTimes(b)
    ensures CountDnf(a + b) == CountDnf(a) + CountDnf(b)
  {
    if |b| == 0 {
      assert a + b == a;
    } else {
      var n := |b| - 1;
      assert (a + b)[..|a + b| - 1] == a + b[..n];
      assert (a + b)[|a + b| - 1] == b[n];
      PenalisedTimesAppend(a, b[..n]);
    }
  }

  /** Without DNFs, there is one counted time per record, at the same position. */
  lemma {:induction false} PenalisedTimesWithoutDnf(records: seq<SolveRecord>)
    requires CountDnf(records) == 0
    ensures |PenalisedTimes(records)| == |records|
    ensures forall i :: 0 <= i < |records| ==>
      Some(PenalisedTimes(records)[i]) == ApplyPenalty(records[i].timeMs, records[i].penalty)
  {
    if |records| > 0 {
      var n := |records| - 1;
      var prefix := records[..n];
      PenalisedTimesWithoutDnf(prefix);
      var t := ApplyPenalty(records[n].timeMs, records[n].penalty);
      assert t.Some?;
      var times := PenalisedTimes(records);
      assert times == PenalisedTimes(prefix) + [t.value];
      forall i | 0 <= i < |records|
        ensures Some(times[i]) == ApplyPenalty(records[i].timeMs, records[i].penalty)
      {
        if i < n {
          assert times[i] == PenalisedTimes(prefix)[i] && records[i] == prefix[i];
        }
      }
    }
  }

  // ---------------------------------------------------------------------------
  // Sums, extremes and sorting

  function Sum(s: seq<real>): real {
    if |s| == 0 then 0.0 else s[0] + Sum(s[1..])
  }

  lemma {:induction false} SumSnoc(s: seq<real>, x: real)
    ensures Sum(s + [x]) == Sum(s) + x
  {
    if |s| == 0 {
      assert s + [x] == [x];
    } else {
      assert (s + [x])[1..] == s[1..] + [x];
      SumSnoc(s[1..], x);
    }
  }

  /** A sum of `|s|` values between `lo` and `hi` lies between `|s|·lo` and `|s|·hi`. */
  lemma {:induction false} SumBounds(s: seq<real>, lo: real, hi: real)
    requires forall i :: 0 <= i < |s| ==> lo <= s[i] <= hi
    ensures |s| as real * lo <= Sum(s) <= |s| as real * hi
  {
    if |s| > 0 {
      SumBounds(s[1..], lo, hi);
    }
  }

  /** `Math.min(...values)`: the least value, which is one of them. */
  function Min(s: seq<real>): (m: real)
    requires |s| > 0
    ensures m in s
    ensures forall i :: 0 <= i < |s| ==> m <= s[i]
  {
    if |s| == 1 then s[0]
    else
      var rest := Min(s[1..]);
      if s[0] <= rest then s[0] else rest
  }

  function Max(s: seq<real>): (m: real)
    requires |s| > 0
    ensures m in s
    ensures forall i :: 0 <= i < |s| ==> s[i] <= m
  {
    if |s| == 1 then s[0]
    else
      var rest := Max(s[1..]);
      if s[0] >= rest then s[0] else rest
  }

  predicate Sorted(s: seq<real>) {
    forall i, j :: 0 <= i <= j < |s| ==> s[i] <= s[j]
  }

  /** Places `x` before the first element that is not smaller than it. */
  function Insert(x: real, s: seq<real>): (r: seq<real>)
    ensures |r| == |s| + 1
    ensures multiset(r) == multiset(s) + multiset{x}
  {
    if |s| == 0 || x <= s[0] then [x] + s
    else
      assert s == [s[0]] + s[1..];
      [s[0]] + Insert(x, s[1..])
  }

  /** Inserting into sorted values keeps them sorted, adds exactly `x`, and puts `x` or the old head first. */
  lemma {:induction false} InsertSorted(x: real, s: seq<real>)
    requires Sorted(s)
    ensures var r := Insert(x, s);
      Sorted(r) && multiset(r) == multiset(s) + multiset{x} && Sum(r) == x + Sum(s)
      && (r[0] == x || (|s| > 0 && r[0] == s[0]))
  {
    if |s| == 0 || x <= s[0] {
      SortedCons(x, s);
    } else {
      InsertSorted(x, s[1..]);
      InsertBehind(x, s, Insert(x, s[1..]));
    }
  }

  /** `x` went in behind the head of `s`: the head stays in front of the insertion into the tail. */
  lemma InsertBehind(x: real, s: seq<real>, rest: seq<real>)
    requires Sorted(s) && |s| > 0 && s[0] < x
    requires Sorted(rest) && multiset(rest) == multiset(s[1..]) + multiset{x} && Sum(rest) == x + Sum(s[1..])
    requires |rest| == |s| && (rest[0] == x || (|s| > 1 && rest[0] == s[1]))
    ensures Sorted([s[0]] + rest)
    ensures multiset([s[0]] + rest) == multiset(s) + multiset{x}
    ensures Sum([s[0]] + rest) == x + Sum(s)
  {
    var t := [s[0]] + rest;
    assert s == [s[0]] + s[1..];
    assert t[1..] == rest;
    SortedCons(s[0], rest);
    assert multiset(t) == multiset{s[0]} + multiset(rest);
    assert Sum(t) == s[0] + Sum(rest);
    assert Sum(s) == s[0] + Sum(s[1..]);
  }

  lemma SortedCons(y: real, s: seq<real>)
    requires Sorted(s) && (|s| == 0 || y <= s[0])
    ensures Sorted([y] + s)
  {
    var r := [y] + s;
    forall i, j | 0 <= i <= j < |r| ensures r[i] <= r[j] {
      if i == 0 && j > 0 {
        assert s[0] <= s[j - 1];
      }
    }
  }

  /** `[...values].sort((a, b) => a - b)`: insertion sort. */
  function Sort(s: seq<real>): (r: seq<real>)
    ensures |r| == |s|
    ensures multiset(r) == multiset(s)
  {
    if |s| == 0 then []
    else
      assert s == [s[0]] + s[1..];
      Insert(s[0], Sort(s[1..]))
  }

  /** Sorting yields the same values, with the same sum, in ascending order. */
  lemma {:induction false} SortSorted(s: seq<real>)
    ensures var r := Sort(s); Sorted(r) && multiset(r) == multiset(s) && Sum(r) == Sum(s)
  {
    if |s| > 0 {
      SortSorted(s[1..]);
      InsertSorted(s[0], Sort(s[1..]));
      assert s == [s[0]] + s[1..];
    }
  }

  /** A sorted sequence is determined by its multiset of values. */
  lemma {:induction false} SortedUnique(a: seq<real>, b: seq<real>)
    requires Sorted(a) && Sorted(b) && multiset(a) == multiset(b)
    ensures a == b
  {
    assert |b| == |multiset(b)| == |multiset(a)| == |a|;
    if |a| > 0 {
      SortedHeads(a, b);
      TailMultiset(a);
      TailMultiset(b);
      SortedUnique(a[1..], b[1..]);
      assert a == [a[0]] + a[1..] && b == [b[0]] + b[1..];
    }
  }

  lemma SortedHeads(a: seq<real>, b: seq<real>)
    requires |a| > 0 && |b| > 0 && Sorted(a) && Sorted(b) && multiset(a) == multiset(b)
    ensures a[0] == b[0]
  {
    assert a[0] in multiset(b);
    var j :| 0 <= j < |b| && b[j] == a[0];
    assert b[0] in multiset(a);
    var i :| 0 <= i < |a| && a[i] == b[0];
    assert a[0] <= a[i] && b[0] <= b[j];
  }

  lemma TailMultiset(a: seq<real>)
    requires |a| > 0
    ensures multiset(a[1..]) == multiset(a) - multiset{a[0]}
  {
    assert a == [a[0]] + a[1..];
  }

  /** Sorting only depends on the values, not on the order they come in. */
  lemma SortPermutation(a: seq<real>, b: seq<real>)
    requires multiset(a) == multiset(b)
    ensures Sort(a) == Sort(b)
  {
    SortSorted(a);
    SortSorted(b);
    SortedUnique(Sort(a), Sort(b));
  }

  /** The ends of the sorted values are the least and the greatest value. */
  lemma SortEnds(s: seq<real>)
    requires |s| > 0
    ensures Sorted(Sort(s)) && Sort(s)[0] == Min(s) && Sort(s)[|s| - 1] == Max(s)
  {
    var r := Sort(s);
    SortSorted(s);
    SortedFirst(r, s);
    SortedLast(r, s);
  }

  lemma SortedFirst(r: seq<real>, s: seq<real>)
    requires |s| > 0 && Sorted(r) && multiset(r) == multiset(s)
    ensures |r| == |s| && r[0] == Min(s)
  {
    assert |r| == |multiset(r)| == |multiset(s)| == |s|;
    var m := Min(s);
    assert m in multiset(r);
    var j :| 0 <= j < |r| && r[j] == m;
    assert r[0] <= r[j];
    assert r[0] in multiset(s);
    var k :| 0 <= k < |s| && s[k] == r[0];
    assert m <= s[k];
  }

  lemma SortedLast(r: seq<real>, s: seq<real>)
    requires |s| > 0 && Sorted(r) && multiset(r) == multiset(s)
    ensures |r| == |s| && r[|r| - 1] == Max(s)
  {
    assert |r| == |multiset(r)| == |multiset(s)| == |s|;
    var m := Max(s);
    assert m in multiset(r);
    var j :| 0 <= j < |r| && r[j] == m;
    assert r[j] <= r[|r| - 1];
    assert r[|r| - 1] in multiset(s);
    var k :| 0 <= k < |s| && s[k] == r[|r| - 1];
    assert s[k] <= m;
  }

  // ---------------------------------------------------------------------------
  // Statistics

  /** The arithmetic mean; none for no values. */
  function Average(values: seq<real>): (r: Option<real>)
    ensures r.None? <==> |values| == 0
    ensures r.Some? ==> Min(values) <= r.value <= Max(values)
    ensures r.Some? ==> IsMean(r.value, values)
  {
    if |values| == 0 then None
    else
      MeanWithin(values, Min(values), Max(values));
      MeanIsMean(values);
      Some(Sum(values) / |values| as real)
  }

  /** The sum does not depend on the order of the values. */
  lemma SumPermutation(a: seq<real>, b: seq<real>)
    requires multiset(a) == multiset(b)
    ensures Sum(a) == Sum(b)
  {
    SortPermutation(a, b);
    SortSorted(a);
    SortSorted(b);
  }

  /** The mean does not depend on the order of the values. */
  lemma AveragePermutation(a: seq<real>, b: seq<real>)
    requires multiset(a) == multiset(b)
    ensures Average(a) == Average(b)
  {
    SumPermutation(a, b);
    assert |a| == |multiset(a)| == |multiset(b)| == |b|;
  }

  /** The mean of values that all lie in `[lo, hi]` lies there too. */
  lemma MeanWithin(values: seq<real>, lo: real, hi: real)
    requires |values| > 0
    requires forall i :: 0 <= i < |values| ==> lo <= values[i] <= hi
    ensures lo <= Sum(values) / |values| as real <= hi
  {
    SumBounds(values, lo, hi);
    MeanBounds(Sum(values), |values| as real, lo, hi);
  }

  /** `m` is the mean of `values`: `m` times their count is their sum. */
  predicate IsMean(m: real, values: seq<real>) {
    m * (|values| as real) == Sum(values)
  }

  lemma MeanIsMean(values: seq<real>)
    requires |values| > 0
    ensures IsMean(Sum(values) / |values| as real, values)
  {
    var n := |values| as real;
    var q := Sum(values) / n;
    assert q * n == Sum(values);
  }

  lemma MeanBounds(sum: real, n: real, lo: real, hi: real)
    requires n > 0.0 && n * lo <= sum <= n * hi
    ensures (sum / n) * n == sum
    ensures lo <= sum / n <= hi
  {
    var q := sum / n;
    assert q * n == sum;
    assert n * (q - lo) >= 0.0;
    assert n * (hi - q) >= 0.0;
  }

  /** The middle element of a sorted sequence, or the mean of the two middle elements. */
  function Middle(sorted: seq<real>): (m: real)
    requires |sorted| > 0
    ensures Sorted(sorted) ==> sorted[0] <= m <= sorted[|sorted| - 1]
    ensures |sorted| % 2 == 1 ==> m in sorted && m == sorted[|sorted| / 2]
    ensures |sorted| % 2 == 0 ==> m == (sorted[|sorted| / 2 - 1] + sorted[|sorted| / 2]) / 2.0
  {
    var mid := |sorted| / 2;
    var last := |sorted| - 1;
    if |sorted| % 2 == 1 then
      assert Sorted(sorted) ==> sorted[0] <= sorted[mid] <= sorted[last];
      sorted[mid]
    else
      assert Sorted(sorted) ==> sorted[0] <= sorted[mid - 1] <= sorted[mid] <= sorted[last];
      (sorted[mid - 1] + sorted[mid]) / 2.0
  }

  /** The middle of the sorted values: none for no values. */
  function Median(values: seq<real>): (r: Option<real>)
    ensures r.None? <==> |values| == 0
    ensures r.Some? ==> Min(values) <= r.value <= Max(values)
    ensures r.Some? && |values| % 2 == 1 ==> r.value in values
  {
    if |values| == 0 then None
    else
      var sorted := Sort(values);
      SortSorted(values);
      SortEnds(values);
      assert Middle(sorted) in sorted ==> Middle(sorted) in multiset(values);
      Some(Middle(sorted))
  }

  /** The median does not depend on the order of the values. */
  lemma MedianPermutation(a: seq<real>, b: seq<real>)
    requires multiset(a) == multiset(b)
    ensures Median(a) == Median(b)
  {
    SortPermutation(a, b);
    assert |a| == |multiset(a)| == |multiset(b)| == |b|;
  }

  /** For values already in ascending order, the median is their middle element or the mean of the two middle ones. */
  lemma MedianOfSorted(values: seq<real>)
    requires |values| > 0 && Sorted(values)
    ensures Median(values) == Some(Middle(values))
    ensures |values| % 2 == 1 ==> Median(values) == Some(values[|values| / 2])
    ensures |values| % 2 == 0 ==>
      Median(values) == Some((values[|values| / 2 - 1] + values[|values| / 2]) / 2.0)
  {
    SortSorted(values);
    SortedUnique(Sort(values), values);
    var m := Middle(values);
    assert Median(values) == Some(m);
  }

  /** The personal best: the least counted time; none for no times. */
  function Best(values: seq<real>): (r: Option<real>)
    ensures r.None? <==> |values| == 0
    ensures r.Some? ==> r.value in values && forall i :: 0 <= i < |values| ==> r.value <= values[i]
  {
    if |values| == 0 then None else Some(Min(values))
  }

  /** `records.slice(start)` with JavaScript's rules for a negative or out-of-range start. */
  function SliceFrom<T>(records: seq<T>, start: int): (r: seq<T>)
    ensures |r| <= |records| && r == records[|records| - |r|..]
    ensures start < 0 ==> |r| == if |records| + start < 0 then |records| else -start
    ensures 0 <= start ==> |r| == if start > |records| then 0 else |records| - start
  {
    if start < 0 then
      (if |records| + start < 0 then records else records[|records| + start..])
    else if start > |records| then []
    else records[start..]
  }

  /** The window `records.slice(-n)`: for `1 <= n <= |records|`, exactly the last `n` records. */
  function Window(records: seq<SolveRecord>, n: int): (w: seq<SolveRecord>)
    ensures 1 <= n <= |records| ==> w == records[|records| - n..] && |w| == n
  {
    SliceFrom(records, -n)
  }

  /**
   * The trimmed average of the counted times of a window: none for fewer than
   * three, otherwise the mean of the sorted times without the first and the
   * last.
   */
  function TrimmedAverage(times: seq<real>): (r: Option<real>)
    ensures r.Some? <==> |times| >= 3
    ensures r.Some? ==> Min(times) <= r.value <= Max(times)
    ensures r.Some? ==> r == Average(Sort(times)[1..|times| - 1])
  {
    var finite := Sort(times);
    if |finite| < 3 then None
    else
      TrimmedWithin(times);
      Average(finite[1..|finite| - 1])
  }

  /** The sorted times without the first and the last have a mean, within the range of the times. */
  lemma TrimmedWithin(times: seq<real>)
    requires |times| >= 3
    ensures var finite := Sort(times);
      Average(finite[1..|finite| - 1]).Some?
      && Min(times) <= Average(finite[1..|finite| - 1]).value <= Max(times)
  {
    SortEnds(times);
    TrimEnds(Sort(times));
  }

  /** `rest` holds the values of `s` with one least and one greatest value taken out, in any order. */
  predicate WithoutExtremes(rest: seq<real>, s: seq<real>)
    requires |s| > 0
  {
    multiset(rest) == multiset(s) - multiset{Min(s)} - multiset{Max(s)}
  }

  /** `r` is `s` rearranged with a least value first and a greatest value last. */
  predicate ExtremesAtEnds(r: seq<real>, s: seq<real>)
    requires |s| > 0
  {
    |r| == |s| && multiset(r) == multiset(s) && r[0] == Min(s) && r[|r| - 1] == Max(s)
  }

  lemma SortedExtremes(times: seq<real>)
    requires |times| > 0
    ensures ExtremesAtEnds(Sort(times), times)
  {
    SortSorted(times);
    SortEnds(times);
  }

  /**
   * The trimmed average is the mean of the times with one least and one
   * greatest time taken out, whichever order the rest comes in.
   */
  lemma TrimmedAverageIsMean(times: seq<real>, rest: seq<real>)
    requires |times| >= 3 && WithoutExtremes(rest, times)
    ensures TrimmedAverage(times) == Average(rest)
  {
    SortedTrimmedMean(times, rest);
  }

  lemma SortedTrimmedMean(times: seq<real>, rest: seq<real>)
    requires |times| >= 3 && WithoutExtremes(rest, times)
    ensures Average(rest) == Average(Sort(times)[1..|times| - 1])
  {
    SortedExtremes(times);
    TrimmedMean(Sort(times), times, rest);
  }

  /** Dropping the ends of an arrangement with a least value first and a greatest last leaves the trimmed mean. */
  lemma TrimmedMean(r: seq<real>, s: seq<real>, rest: seq<real>)
    requires |s| >= 3 && ExtremesAtEnds(r, s) && WithoutExtremes(rest, s)
    ensures Average(rest) == Average(r[1..|s| - 1])
  {
    DropEnds(r, s);
    AveragePermutation(r[1..|r| - 1], rest);
  }

  lemma DropEnds(r: seq<real>, s: seq<real>)
    requires |s| >= 2 && ExtremesAtEnds(r, s)
    ensures WithoutExtremes(r[1..|r| - 1], s)
  {
    InnerMultiset(r);
  }

  /**
   * The average of N: none with fewer than `n` records or more than one DNF
   * among the last `n`, otherwise the trimmed average of their counted times.
   */
  function ComputeAoN(records: seq<SolveRecord>, n: int): (r: Option<real>)
    ensures r.Some? <==>
      n <= |records| && CountDnf(Window(records, n)) <= 1 && |PenalisedTimes(Window(records, n))| >= 3
    ensures r.Some? ==>
      Min(PenalisedTimes(Window(records, n))) <= r.value <= Max(PenalisedTimes(Window(records, n)))
    ensures r.Some? ==> r == TrimmedAverage(PenalisedTimes(Window(records, n)))
  {
    if |records| < n then None
    else
      var window := Window(records, n);
      if CountDnf(window) > 1 then None else TrimmedAverage(PenalisedTimes(window))
  }

  /** Dropping both ends of a sorted sequence of three or more removes its least and its greatest value. */
  lemma TrimEnds(finite: seq<real>)
    requires Sorted(finite) && |finite| >= 3
    ensures var inner := finite[1..|finite| - 1];
      Sum(inner) == Sum(finite) - finite[0] - finite[|finite| - 1]
      && finite[0] <= Min(inner) && Max(inner) <= finite[|finite| - 1]
  {
    var k := |finite|;
    var inner := finite[1..k - 1];
    assert finite == [finite[0]] + (inner + [finite[k - 1]]);
    SumSnoc(inner, finite[k - 1]);
    var i :| 0 <= i < |inner| && inner[i] == Min(inner);
    var j :| 0 <= j < |inner| && inner[j] == Max(inner);
    assert finite[0] <= finite[i + 1] && finite[j + 1] <= finite[k - 1];
  }

  lemma InnerMultiset(s: seq<real>)
    requires |s| >= 2
    ensures multiset(s[1..|s| - 1]) == multiset(s) - multiset{s[0]} - multiset{s[|s| - 1]}
  {
    var inner := s[1..|s| - 1];
    assert s == [s[0]] + inner + [s[|s| - 1]];
    assert multiset(s) == multiset{s[0]} + multiset(inner) + multiset{s[|s| - 1]};
  }

  /**
   * The average of N is the mean of the window's counted times with one least
   * and one greatest time taken out.
   */
  lemma AoNIsTrimmedMean(records: seq<SolveRecord>, n: int, rest: seq<real>)
    requires ComputeAoN(records, n).Some?
    requires WithoutExtremes(rest, PenalisedTimes(Window(records, n)))
    ensures ComputeAoN(records, n) == Average(rest)
  {
    TrimmedAverageIsMean(PenalisedTimes(Window(records, n)), rest);
  }

  /** With a window of four or more solves, the average exists exactly when at most one of them is a DNF. */
  lemma AoNDefined(records: seq<SolveRecord>, n: int)
    requires 4 <= n
    ensures ComputeAoN(records, n).Some? <==>
      n <= |records| && CountDnf(records[|records| - n..]) <= 1
  {
    if n <= |records| {
      PenalisedTimesCount(Window(records, n));
    }
  }

  /** Only the last `n` records matter: older solves never change the average of N. */
  lemma AoNUsesLastN(older: seq<SolveRecord>, records: seq<SolveRecord>, n: int)
    requires 1 <= n <= |records|
    ensures ComputeAoN(older + records, n) == ComputeAoN(records, n)
  {
    var all := older + records;
    assert Window(all, n) == Window(records, n) by {
      assert all[|all| - n..] == records[|records| - n..];
    }
  }

  /** `computeStats`: mean, median and best of the counted times, with ao5 and ao12. */
  method ComputeStats(records: seq<SolveRecord>) returns (stats: TimingStats)
    ensures stats.average == Average(PenalisedTimes(records))
    ensures stats.median == Median(PenalisedTimes(records))
    ensures stats.pb == Best(PenalisedTimes(records))
    ensures stats.ao5 == ComputeAoN(records, 5) && stats.ao12 == ComputeAoN(records, 12)
    ensures stats.average.None? <==> CountDnf(records) == |records|
    ensures stats.pb.Some? ==> stats.pb.value <= stats.average.value && stats.pb.value <= stats.median.value
  {
    var times := NumericTimes(records);
    stats := TimingStats(Average(times), Median(times), ComputeAoN(records, 5), ComputeAoN(records, 12), Best(times));
  }

  // ---------------------------------------------------------------------------
  // History filter

  /**
   * Whether a record passes the filters. The case filter is a truthiness test,
   * so an empty case id filters nothing; every group name is non-empty.
   */
  predicate Matches(options: FilterOptions, s: SolveRecord)
    ensures options.caseId.Some? && options.caseId.value != "" && Matches(options, s) ==> s.caseId == options.caseId.value
    ensures options.group.Some? && Matches(options, s) ==> s.group == options.group.value
    ensures (options.caseId.None? || options.caseId.value == "") && options.group.None? ==> Matches(options, s)
  {
    (options.caseId.None? || options.caseId.value == "" || s.caseId == options.caseId.value)
    && (options.group.None? || s.group == options.group.value)
  }

  /** `filterSolves`: the records that pass the given filters, in their original order. */
  function FilterSolves(solves: seq<SolveRecord>, options: FilterOptions): (r: seq<SolveRecord>)
    ensures |r| <= |solves|
    ensures forall s :: s in r <==> s in solves && Matches(options, s)
  {
    Filter(solves, s => Matches(options, s))
  }

  /** With no filter given, or only an empty case id, every record is kept. */
  lemma FilterSolvesWithoutOptions(solves: seq<SolveRecord>, caseId: Option<string>)
    requires caseId.None? || caseId == Some("")
    ensures FilterSolves(solves, FilterOptions(caseId, None)) == solves
  {
    FilterKeepsAll(solves, s => Matches(FilterOptions(caseId, None), s));
  }

  /** Filtering older and newer records separately and concatenating gives the same list. */
  lemma FilterSolvesAppend(a: seq<SolveRecord>, b: seq<SolveRecord>, options: FilterOptions)
    ensures FilterSolves(a + b, options) == FilterSolves(a, options) + FilterSolves(b, options)
  {
    FilterAppend(a, b, s => Matches(options, s));
  }
}

=== FILE: wrappers.dfy ===
/** Optional values and results with an error, standing for `T | null` and thrown errors. */
module Wrappers {

  datatype Option<+T> = None | Some(value: T)

  datatype Result<+T, +E> = Success(value: T) | Failure(error: E)
}
